=== FILE: README.md ===
# Livedata server synchronisation core, modelled in Dafny

This project models the synchronisation core of Meteor's early livedata
server (`packages/livedata/livedata_server.js`). The core does five things.

- **Poll cycle.** Each connection keeps a list of subscriptions and a cache
  of the documents its client holds. A poll re-runs every subscription's
  publication and builds a fresh cache through `channel.send`. It then
  emits `data` messages for the difference from the old cache, promotes the
  fresh cache, and announces readiness for subscriptions that were not yet
  ready.
- **Subscribe and unsubscribe.** `sub` and `unsub` messages edit the
  subscription list and trigger a poll.
- **Registries.** `Meteor.publish` keeps the publication registry.
  `Meteor.Collection` keeps the collection registry, with `insert` id
  allocation and the `api` method table.
- **Mutations.** `run_handler` performs a mutation and then requests a poll
  of every socket.
- **Dispatch.** A dispatcher routes incoming `livedata` messages.

Everything is a pure function over immutable values. A value is a
JSON-shaped `Value`; a document is a `map<string, Value>`. A cache is the
key order plus a map from composite key to document. The key order is
kept because JavaScript iterates an object's string keys in insertion
order, and that order fixes the order of the emitted messages.
`Snapshot.SendAllOrder` states how `channel.send` extends the key order,
and `DiffCoverage.DataMessagesInOrder` states how the messages follow it.

Each operation returns the new state together with the emissions it put on
the socket, in order.

Modules, one per file (`difflaws.dfy` holds two):

- `Values` (`values.dfy`): the value type and the JavaScript conversions
  the core relies on: truthiness, `typeof`, `String(v)`, index names and
  `===`.
- `Strings` (`strings.dfy`): `split` and `join` with a one-character
  separator.
- `CacheKeys` (`cachekeys.dfy`): the `collection|id` key.
- `Snapshot` (`snapshot.dfy`): the cache and `channel.send`.
- `Diff` (`diff.dfy`): the two diff passes.
- `DiffLaws` and `DiffCoverage` (`difflaws.dfy`): the client-side patch and
  the laws of the diff.
- `Registry` (`registry.dfy`): publications, collections, `opt`, `insert`
  and `api`.
- `Sync` (`sync.dfy`): connection operations.
- `Server` (`server.dfy`): the server state, socket events and
  `run_handler`.

Behaviours of the code worth knowing:

- A `data` message is sent for every well-formed key of the new cache, even
  when nothing changed. An unchanged re-poll therefore sends one empty
  message per key; it does not send nothing.
- A successful mutation requests a poll of every socket, the sender
  included.
- Publishing a name twice is logged and ignored. It is not an error.
- A failed mutation throws and sends nothing back to the client.
- Subscription ids may repeat. Each pending entry gets its own ready
  message, and `unsub` removes every entry with that id.
- Field values are compared by structural equality. The code compares them
  with `JSON.stringify`, which is key-order sensitive.

The server-level events (`Server.OnLivedata`) use the corrected dispatcher
`Sync.Receive`. The dispatcher as written, which crashes on `null`, is
modelled separately as `Sync.ReceiveAsWritten` (see Findings). Likewise
the diff uses the corrected changed-key message `Diff.ChangedMessage`. The
message as written is `Diff.ChangedMessageAsWritten`.

## Model

| member | source | states |
|---|---|---|
| `CacheKeys.KeyRoundTrip` | packages/livedata/livedata_server.js:32 | splitting `collection + "\|" + id` on the separator gives back exactly `(collection, id)` when neither part contains it |
| `CacheKeys.ParseKeyInverse` | packages/livedata/livedata_server.js:58-61 | a key that splits into exactly two parts is the concatenation of those parts around the separator |
| `CacheKeys.WellFormedIffOneSeparator` | packages/livedata/livedata_server.js:58-59 | a key passes the `parts.length !== 2` guard exactly when it contains the separator once |
| `CacheKeys.ParseKeyInjective` | packages/livedata/livedata_server.js:58-61 | two different well-formed keys never parse to the same (collection, id) |
| `Strings.SplitOnCount` | packages/livedata/livedata_server.js:58 | `split` yields one more piece than there are separators |
| `Strings.JoinSplitOn` | packages/livedata/livedata_server.js:58 | joining the pieces of a split with the separator restores the string |
| `Snapshot.SendAll` | packages/livedata/livedata_server.js:21-37 | the cache keeps its key order as a prefix and stays consistent; its keys are the earlier keys plus the keys of the objects with a truthy `_id`; if every earlier entry holds `_id`, every entry still does |
| `Snapshot.Send` | packages/livedata/livedata_server.js:21-37 | a non-array argument is wrapped into a one-element array: one object without a truthy `_id` changes nothing, one with an id is merged under its key; an array is sent element by element, as `SendAll` states |
| `Snapshot.SendAllOrder` | packages/livedata/livedata_server.js:25-36 | the key order after a send is the earlier order followed by the new keys, each placed where the first object with that key comes in the array |
| `Snapshot.SendAllDropsUnadmitted` | packages/livedata/livedata_server.js:26-29 | sending an object without a truthy `_id` is the same as not sending it |
| `Snapshot.SendAllFields` | packages/livedata/livedata_server.js:35 | a merged entry's fields are the earlier entry's fields plus those of every object sent under the key |
| `Snapshot.SendAllLaterWins` | packages/livedata/livedata_server.js:35 | a field takes the value of the last object under its key that carries it |
| `Snapshot.SendAllEarlierSurvives` | packages/livedata/livedata_server.js:35 | a field no later object carries keeps its earlier value |
| `Diff.RemovedKeys` | packages/livedata/livedata_server.js:94-95 | the removed keys are exactly the old keys absent from the new cache, without repeats |
| `Diff.RemovedKeysInOrder` | packages/livedata/livedata_server.js:94-95 | the removed keys keep the old cache's key order: any two of them occur in the same order among the old keys |
| `Diff.DataMessages` | packages/livedata/livedata_server.js:52-106 | every message of the two passes is a `data` message |
| `DiffCoverage.NewKeyPassInOrder` | packages/livedata/livedata_server.js:52-91 | the first pass addresses only keys of the new cache, and any two of its messages address keys in the new cache's key order |
| `DiffCoverage.RemovedPassInOrder` | packages/livedata/livedata_server.js:96-106 | the second pass addresses only the removed keys, and any two of its messages address keys in the order of the removed-key list |
| `DiffCoverage.DataMessagesInOrder` | packages/livedata/livedata_server.js:52-106 | a cycle's messages first address keys of the new cache, in its key order, then keys only the old cache holds, in the old cache's key order |
| `Diff.ChangedMessageAgreesOffLength` | packages/livedata/livedata_server.js:71-90 | when the new entry has no numeric `length` field, the changed-key message as written equals the corrected one |
| `DiffLaws.LengthFieldHidesChange` | packages/livedata/livedata_server.js:75-79 | for old `{_id:"a", length:3, n:1}` and new `{_id:"a", length:3, n:2}` the message as written carries neither `set` nor `unset`, so the patched client keeps `n:1`; the corrected message sets `n:2` and the patch gives the new entry |
| `DiffLaws.Patch` | packages/livedata/livedata_server.js:63-106 | after patching, a field is present exactly when the message sets it or it was present and not unset |
| `DiffLaws.PatchChanged` | packages/livedata/livedata_server.js:71-90 | patching an entry with its corrected changed-key message yields the new entry exactly |
| `DiffLaws.PatchRemoved` | packages/livedata/livedata_server.js:103-104 | patching with a removed-key message leaves nothing but `_id` |
| `DiffLaws.NewKeyPassEffect` | packages/livedata/livedata_server.js:54-91 | the first pass patches each well-formed new key once with its own message and touches no other key |
| `DiffLaws.RemovedPassEffect` | packages/livedata/livedata_server.js:96-106 | the second pass patches each well-formed removed key once and touches no other key |
| `DiffLaws.DiffRoundTrip` | packages/livedata/livedata_server.js:52-109 | for any two caches, applying a cycle's messages to the old cache gives the new cache at every well-formed key: exactly for keys in both, up to `_id` for keys added or removed; a malformed key, which both passes skip, keeps its old entry |
| `DiffCoverage.OneMessagePerKey` | packages/livedata/livedata_server.js:54-106 | each well-formed key of either cache gets exactly one message; a malformed key or a key in neither cache gets none |
| `DiffCoverage.AddedKeyMessage` | packages/livedata/livedata_server.js:65-69 | a key only the new cache holds is sent with `set` equal to the entry without `_id` and no `unset` |
| `DiffCoverage.ChangedKeyMessage` | packages/livedata/livedata_server.js:71-90 | a key in both caches is sent with exactly the differing new fields as `set` and the vanished names as `unset`, each attached only when non-empty |
| `DiffCoverage.RemovedKeyMessageSent` | packages/livedata/livedata_server.js:96-106 | a key only the old cache holds is sent with no `set` and every old field name except `_id` as `unset` |
| `DiffCoverage.IdFieldInMessages` | packages/livedata/livedata_server.js:67-104 | while entries carry `_id` it is never unset, and it is set only for a key whose `_id` value changed |
| `DiffCoverage.RepollSendsEmptyMessages` | packages/livedata/livedata_server.js:89 | diffing a cache against itself sends one message per well-formed key, none with `set` or `unset` |
| `Registry.DefaultQuery` | packages/livedata/livedata_server.js:252-260 | with no options the query is selector `{}` with no sort, skip or limit |
| `Registry.Publish` | packages/livedata/livedata_server.js:237-264 | a known name leaves the registry unchanged; a new name fails exactly when there is no collection option and no collection of that name; otherwise it adds only `name`, reading the collection from the option or the registry |
| `Registry.NewCollection` | packages/livedata/livedata_server.js:275-351 | a falsy name is refused; otherwise an empty collection is registered under its name, replacing any earlier one, so each entry stays stored under its own name |
| `Registry.InsertDoc` | packages/livedata/livedata_server.js:306-323 | a document with a truthy `_id` is passed on unchanged; one without gets the fresh id and keeps every other field |
| `Sync.Connect` | packages/livedata/livedata_server.js:188-190 | a new connection has no subscriptions and an empty cache |
| `Sync.BuildSnapshotIgnoresReady` | packages/livedata/livedata_server.js:41-50 | the fresh cache depends on the subscriptions' names and params only, not on their ready flags |
| `Sync.ReadyPass` | packages/livedata/livedata_server.js:112-117 | every subscription ends ready; there is one ready message per not-ready entry, each announcing a not-ready entry's id |
| `Sync.ReadyPassOrder` | packages/livedata/livedata_server.js:112-117 | the ready messages follow the list order: pending entry `i` is announced at the position equal to the number of pending entries before it, repeated ids included |
| `Sync.Poll` | packages/livedata/livedata_server.js:10-118 | the cache becomes the freshly built one; every subscription keeps its place and becomes ready; all data messages come first, then the ready messages in list order, one per pending entry |
| `Sync.PollSyncsClient` | packages/livedata/livedata_server.js:10-118 | a client applying a poll's emissions to what it held ends with the new cache at every well-formed key, exactly where the key was already held |
| `Sync.PollNeverUnsetsId` | packages/livedata/livedata_server.js:26-37 | every cache a poll builds holds `_id` in each entry, so starting from such a cache no message of the poll unsets `_id` |
| `Sync.PollAgain` | packages/livedata/livedata_server.js:52-117 | polling again with nothing changed keeps the state, announces no subscription again, and sends only empty data messages |
| `Sync.Subscribe` | packages/livedata/livedata_server.js:122-133 | an unknown name gets `nosub` with error 17 and changes nothing; for a known one the result is exactly the poll of the list with a not-ready subscription appended at the end: the cache is rebuilt from the grown list, the new subscription becomes ready and is announced |
| `Sync.SubscribeSendsData` | packages/livedata/livedata_server.js:122-133 | subscribing to a known name first sends the data messages from the old cache to the one the grown list builds, then leaves every subscription ready and announces each one that was pending, earlier ones included |
| `Sync.PollAnnouncesPending` | packages/livedata/livedata_server.js:112-117 | every subscription pending before a poll is announced by it |
| `Sync.SubscribeThenUnsubscribe` | packages/livedata/livedata_server.js:122-141 | subscribing and then unsubscribing with a fresh primitive id restores the earlier subscriptions and the cache they build |
| `Sync.PublishThenSubscribe` | packages/livedata/livedata_server.js:122-133 | once a name is published, a new connection's subscription to it is announced and fills the cache with exactly what the publication's resolved query fetches |
| `Sync.Without` | packages/livedata/livedata_server.js:137-139 | the filter keeps exactly the subscriptions whose id is not `===` to the given id |
| `Sync.WithoutAppend` | packages/livedata/livedata_server.js:137-139 | the filter distributes over concatenation, so the kept subscriptions stay in their original order |
| `Sync.WithoutIdempotent` | packages/livedata/livedata_server.js:137-139 | a second removal of the same id removes nothing more |
| `Sync.WithoutObjectIdKeepsAll` | packages/livedata/livedata_server.js:137-139 | an object or array id is never `===` to a stored id, so it removes nothing |
| `Sync.Unsubscribe` | packages/livedata/livedata_server.js:135-141 | `nosub` without error comes first, followed by the poll's output; every subscription with that id is removed and the rest keep their order and all end ready; the connection is exactly what the poll of the kept list leaves, its cache rebuilt from that list |
| `Sync.UnsubscribeUnsetsDropped` | packages/livedata/livedata_server.js:135-141 | after unsubscribing, a cached key the remaining subscriptions no longer produce is sent with every field but `_id` unset |
| `Sync.ReceiveAsWritten` | packages/livedata/livedata_server.js:192-196 | as written, the handler throws exactly on `null`, and discards other non-objects |
| `Sync.NullMessageCrashes` | packages/livedata/livedata_server.js:193 | the `null` message crashes the handler as written and is discarded by the corrected one |
| `Sync.Receive` | packages/livedata/livedata_server.js:192-204 | non-objects and messages without a truthy `msg` are discarded unchanged; `sub` and `unsub` are routed with the message's id, name and params; other types are discarded |
| `Sync.ReceiveAgreesOffNull` | packages/livedata/livedata_server.js:192-204 | on every message but `null` the corrected handler does what the written one does |
| `Server.InsertArgument` | packages/livedata/livedata_server.js:306-316 | `null` and `undefined` make the `_id` read throw; an object gives its own fields; an array or a string gives its elements or characters under index names; a number or a boolean gives nothing |
| `Server.HandlePayload` | packages/livedata/livedata_server.js:143-152 | a payload that is not an object fails before any poll: `undefined`, `null`, a number, a string or a boolean makes the collection test throw, and an array names no collection; an object is handled by `RunHandler` |
| `Server.RunHandler` | packages/livedata/livedata_server.js:143-185 | for an object payload, an absent or unknown collection fails, and so does an unknown type; `insert`, `update` and `remove` run the built-in mutator with the message's fields, or the `api` function installed under that name; `method` fails for an unknown name or for number, string or boolean `args`; a thrown action fails; on success every given socket is polled, the sender included |
| `Server.ApiReplacesMutators` | packages/livedata/livedata_server.js:340-345 | after `api` installs a function named `insert`, `update` or `remove`, a mutation of that type runs that function, never the built-in |
| `Server.PrimitiveInsertIsIdOnly` | packages/livedata/livedata_server.js:306-323 | a built-in `insert` whose `args` is a number or a boolean stores a document holding only the fresh `_id` |
| `Server.PollAll` | packages/livedata/livedata_server.js:180-182 | every listed connection's cache becomes its freshly built cache; subscriptions keep their entries and unlisted connections are untouched |
| `Server.PollAllDelivers` | packages/livedata/livedata_server.js:180-182 | with distinct sockets, each listed connection ends as its own poll leaves it, and the deliveries are the poll outputs, each addressed to its socket, in list order |
| `Server.Accept` | packages/livedata/livedata_server.js:187-190 | a new socket is added at the end of the socket list with the initial empty state; the registries and the other connections are unchanged |
| `Server.OnLivedata` | packages/livedata/livedata_server.js:192-204 | a `livedata` event changes only its own connection, to what the corrected handler leaves, and delivers exactly the handler's emissions to that socket |
| `Server.OnHandle` | packages/livedata/livedata_server.js:206-208 | a handle event whose payload is not an object always fails; it fails exactly when the handler fails, with its error; on success it returns the handler's action, every socket ends as its poll leaves it, the sender included, and the deliveries are the poll outputs; the registries, the socket list, the set of connections and every connection outside the socket list are unchanged |

## Findings

| source | as written | input that shows it | evidently intended | confidence | as-written member | corrected member |
|---|---|---|---|---|---|---|
| packages/livedata/livedata_server.js:193 | the guard is `typeof(msg) !== 'object' \|\| !msg.msg`, and `typeof null` is `'object'`, so `null` reaches the property read `msg.msg`, which throws a TypeError | a client emits `livedata` with payload `null` | every payload that is not an object with a truthy `msg` is discarded with the "discarding invalid livedata message" log | medium, not executed | `Sync.NullMessageCrashes` (over `Sync.ReceiveAsWritten`) | `Sync.Receive` |
| packages/livedata/livedata_server.js:75-79 | the comparison loop walks the new entry with underscore's `_.each`. `_.each` treats an object whose `length` is a number as an array, so it visits only the index-named properties below `length` | old `{_id:"a", length:3, n:1}`, new `{_id:"a", length:3, n:2}`: the message carries no `set` and the client keeps `n:1` | every new or differing field of the new entry is sent in `set` | medium, not executed; this is underscore's documented `_.each` behaviour, but the bundled underscore is not part of this model | `DiffLaws.LengthFieldHidesChange` (over `Diff.ChangedMessageAsWritten`) | `DiffLaws.PatchChanged` (over `Diff.ChangedMessage`) |

## Left out

- Fibers (`Fiber(...).run()`) and the interleavings they allow. Each poll, subscribe, unsubscribe and mutation is one atomic step.
- `_.throttle` and `setInterval`. They are timers and rate limiting. A requested poll runs at once, exactly once per socket listed.
- The Mongo driver (`find`, `fetch`, `insert`, `update`, `remove`). A query's result is the `fetch` parameter. A mutation's effect on the store is left abstract: `run_handler` returns the `Action` it performs. Whether the driver or a user function throws is the `completes` parameter.
- Selector, sort, skip and limit semantics. These belong to the data source.
- `Meteor.uuid()`. It is the `freshId` parameter of `InsertDoc` and `RunHandler`.
- `JSON.stringify` comparison. Values compare structurally. Key-order and `-0` spurious updates are therefore not modelled.
- Logging (`console.log`, `Meteor._debug`) and the socket transport. Emissions form an output sequence.
- Field order inside `unset`. The model keeps the names as a set.
- Non-integer numbers, integers above 2^53 in magnitude, which a double holds only in part (2^53 + 1 is the first it cannot hold, so JavaScript would already have rounded it and `String(v)` prints other digits), integers of 10^21 or more (which JavaScript prints in exponent form), and `undefined` inside values. `VNum` is an unbounded integer and `Text` prints its exact digits.
- Inherited `Object.prototype` names (`toString`, ...) used as publication, collection or api names. The JavaScript `in` and index tests would see them; the model's maps do not.
- `channel.send` with non-object array elements. Publications only ever send what `fetch()` returns, which is objects.
- `api` values that are not functions. The model treats every installed method as callable, and calling it is covered by `completes`.
- `api` names that shadow the collection's own members other than `insert`, `update` and `remove` (`_name`, `_api`, `find`, ...). Shadowing of the three mutators is modelled.
- `findOne` and `schema`. They are not used by the core.
- `Meteor.subscribe` and `Meteor.autosubscribe`. They are no-ops on the server.
- Socket disconnection. The source never cancels the timer or removes the connection.
- Server.InsertArgument: a string argument gets one index field per Dafny `char`, a Unicode scalar value. JavaScript's `for (k in s)` gives one per UTF-16 code unit, so a character outside the Basic Multilingual Plane becomes two fields there and one here.
- Diff.DataMessages: uses the corrected changed-key message `Diff.ChangedMessage`, not the one as written (`Diff.ChangedMessageAsWritten`), which drops the changes of an entry with a numeric `length` field (see Findings).
- Sync.Poll: its data messages are those of `Diff.DataMessages`, so it also uses the corrected changed-key message.
- Server.OnLivedata: handles the event with the corrected dispatcher `Sync.Receive`, which discards a `null` payload, not with `Sync.ReceiveAsWritten`, which throws on it (see Findings).

=== FILE: cachekeys.dfy ===
/** The composite cache key `collection + "|" + id` and its parsing by
    `key.split("|")`. */
module CacheKeys {
  import opened Wrappers
  import Strings

  const Separator: char := '|'

  /** The key under which a document of `collection` with textual id `id` is cached. */
  function MakeKey(collection: string, id: string): (k: string)
    ensures |k| == |collection| + 1 + |id|
    ensures k[|collection|] == Separator
  {
    collection + [Separator] + id
  }

  /** A key that splits into exactly two parts yields (collection, id);
      any other key is malformed. */
  function ParseKey(k: string): (r: Option<(string, string)>)
    ensures r.Some? ==> Separator !in r.value.0 && Separator !in r.value.1
  {
    var parts := Strings.SplitOn(k, Separator);
    if |parts| == 2 then Some((parts[0], parts[1])) else None
  }

  predicate WellFormed(k: string)
  {
    ParseKey(k).Some?
  }

  /** Parsing a key built from separator-free parts gives back exactly those parts. */
  lemma KeyRoundTrip(collection: string, id: string)
    requires Separator !in collection && Separator !in id
    ensures ParseKey(MakeKey(collection, id)) == Some((collection, id))
  {
    Strings.SplitOnJoinPair(collection, id, Separator);
  }

  /** Whatever parses was built by `MakeKey` from the parsed parts. */
  lemma ParseKeyInverse(k: string)
    requires WellFormed(k)
    ensures MakeKey(ParseKey(k).value.0, ParseKey(k).value.1) == k
  {
    Strings.JoinSplitOn(k, Separator);
    var parts := Strings.SplitOn(k, Separator);
    assert parts[1..] == [parts[1]];
  }

  /** A key is well formed exactly when it contains the separator once. */
  lemma WellFormedIffOneSeparator(k: string)
    ensures WellFormed(k) <==> Strings.Occurrences(k, Separator) == 1
  {
    Strings.SplitOnCount(k, Separator);
  }

  /** Distinct well-formed keys never parse to the same pair. */
  lemma ParseKeyInjective(k1: string, k2: string)
    requires WellFormed(k1) && WellFormed(k2)
    requires ParseKey(k1) == ParseKey(k2)
    ensures k1 == k2
  {
    ParseKeyInverse(k1);
    ParseKeyInverse(k2);
  }
}

=== FILE: diff.dfy ===
/** The diff step of a poll cycle (livedata_server.js, poll_subscriptions):
    the `data` messages computed from the previous cache and the freshly built
    one, and the client-side patch they are meant to drive. */
module Diff {
  import opened Wrappers
  import opened Values
  import opened CacheKeys
  import opened Protocol
  import opened Snapshot

  /** Field-level change from `before` to `after`: the fields whose value is
      new or different, and the fields that disappeared. */
  datatype Delta = Delta(changed: Doc, removed: set<string>)

  function FieldDelta(before: Doc, after: Doc): (d: Delta)
    ensures forall f :: f in d.changed <==> f in after && (f !in before || before[f] != after[f])
    ensures forall f :: f in d.changed ==> d.changed[f] == after[f]
    ensures forall f :: f in d.removed <==> f in before && f !in after
  {
    Delta(map f | f in after && (f !in before || before[f] != after[f]) :: after[f],
          before.Keys - after.Keys)
  }

  /** `if (_.keys(set).length > 0) msg.set = set`. */
  function AttachFields(m: Doc): (r: Option<Doc>)
    ensures r.Some? <==> m != map[]
    ensures r.Some? ==> r.value == m
  {
    if m == map[] then None else Some(m)
  }

  /** `if (unset.length > 0) msg.unset = unset`. */
  function AttachNames(s: set<string>): (r: Option<set<string>>)
    ensures r.Some? <==> s != {}
    ensures r.Some? ==> r.value == s
  {
    if s == {} then None else Some(s)
  }

  /** Whether underscore's `_.each` takes `d` for an array: its `length`
      property is a number. */
  predicate ArrayLike(d: Doc)
  {
    "length" in d && d["length"].VNum?
  }

  /** The names `_.each` visits: for an array-like object, only its own
      properties named by an index below `length`; otherwise its own keys. */
  function WalkedNames(d: Doc): (r: set<string>)
    ensures r <= d.Keys
    ensures !ArrayLike(d) ==> r == d.Keys
    ensures ArrayLike(d) ==> forall f :: f in r <==> f in d && f in IndexNames(d["length"].n)
  {
    if ArrayLike(d) then d.Keys * IndexNames(d["length"].n) else d.Keys
  }

  /** The field delta as the changed-key branch computes it: the comparison
      loop walks `after` with `_.each`, while `unset` uses `_.keys`. A new
      entry with a numeric `length` field has its other fields skipped. */
  function FieldDeltaAsWritten(before: Doc, after: Doc): (d: Delta)
    ensures forall f :: f in d.changed <==> f in WalkedNames(after) && (f !in before || before[f] != after[f])
    ensures d.removed == FieldDelta(before, after).removed
  {
    var walked := WalkedNames(after);
    Delta(map f | f in walked && (f !in before || before[f] != after[f]) :: after[f],
          before.Keys - after.Keys)
  }

  /** The changed-key message as written, from `FieldDeltaAsWritten`. */
  function ChangedMessageAsWritten(collection: string, id: string, before: Doc, after: Doc): Emission
  {
    var d := FieldDeltaAsWritten(before, after);
    Data(collection, id, AttachFields(d.changed), AttachNames(d.removed))
  }

  /** Off array-like entries, the code as written sends the corrected message. */
  lemma ChangedMessageAgreesOffLength(collection: string, id: string, before: Doc, after: Doc)
    requires !ArrayLike(after)
    ensures ChangedMessageAsWritten(collection, id, before, after) == ChangedMessage(collection, id, before, after)
  {
    assert FieldDeltaAsWritten(before, after) == FieldDelta(before, after);
  }

  /** A key absent from the previous cache: `set` is the whole entry without `_id`. */
  function AddedMessage(collection: string, id: string, after: Doc): Emission
  {
    Data(collection, id, Some(after - {IdField}), None)
  }

  /** A key in both caches: `set` and `unset` from the field delta, each only
      when non-empty; the message is sent even when both are absent. */
  function ChangedMessage(collection: string, id: string, before: Doc, after: Doc): Emission
  {
    var d := FieldDelta(before, after);
    Data(collection, id, AttachFields(d.changed), AttachNames(d.removed))
  }

  /** A key gone from the new cache: no `set`; `unset` is every old field but `_id`. */
  function RemovedMessage(collection: string, id: string, before: Doc): Emission
  {
    Data(collection, id, None, Some(before.Keys - {IdField}))
  }

  /** The message for well-formed key `k` of the new cache. */
  function NewKeyMessage(k: string, before: map<string, Doc>, after: Doc): Emission
    requires WellFormed(k)
  {
    var (c, id) := ParseKey(k).value;
    if k in before then ChangedMessage(c, id, before[k], after) else AddedMessage(c, id, after)
  }

  /** The message for well-formed key `k` that only the old cache holds. */
  function RemovedKeyMessage(k: string, before: Doc): Emission
    requires WellFormed(k)
  {
    var (c, id) := ParseKey(k).value;
    RemovedMessage(c, id, before)
  }

  /** The first pass: one message per well-formed key of the new cache, in
      its key order; a malformed key is skipped. */
  function NewKeyPass(ks: seq<string>, before: map<string, Doc>, after: map<string, Doc>): seq<Emission>
    requires forall i :: 0 <= i < |ks| ==> ks[i] in after
  {
    if |ks| == 0 then []
    else
      (if WellFormed(ks[0]) then [NewKeyMessage(ks[0], before, after[ks[0]])] else [])
      + NewKeyPass(ks[1..], before, after)
  }

  /** `_.difference(_.keys(old_cache), _.keys(new_cache))`, in old key order. */
  function RemovedKeys(ks: seq<string>, after: map<string, Doc>): (r: seq<string>)
    ensures forall k :: k in r <==> k in ks && k !in after
    ensures Distinct(ks) ==> Distinct(r)
  {
    if |ks| == 0 then []
    else
      var rest := RemovedKeys(ks[1..], after);
      if ks[0] in after then rest
      else
        assert forall i :: 0 <= i < |rest| ==> rest[i] in ks[1..];
        [ks[0]] + rest
  }

  /** `a` occurs before `b` in `ks`. */
  ghost predicate Before(ks: seq<string>, a: string, b: string)
  {
    exists p, q :: 0 <= p < q < |ks| && ks[p] == a && ks[q] == b
  }

  /** The removed keys keep the old cache's order: any two of them occur in
      the same order among the old keys. */
  lemma {:induction false} RemovedKeysInOrder(ks: seq<string>, after: map<string, Doc>)
    ensures forall i, j :: 0 <= i < j < |RemovedKeys(ks, after)| ==>
      Before(ks, RemovedKeys(ks, after)[i], RemovedKeys(ks, after)[j])
    decreases |ks|
  {
    if |ks| > 0 {
      var rest := RemovedKeys(ks[1..], after);
      var r := RemovedKeys(ks, after);
      RemovedKeysInOrder(ks[1..], after);
      forall i, j | 0 <= i < j < |r|
        ensures Before(ks, r[i], r[j])
      {
        if ks[0] in after {
          assert r == rest;
          assert Before(ks[1..], rest[i], rest[j]);
          var p, q :| 0 <= p < q < |ks| - 1 && ks[1..][p] == rest[i] && ks[1..][q] == rest[j];
          assert ks[p + 1] == r[i] && ks[q + 1] == r[j];
        } else if i == 0 {
          assert r[j] == rest[j - 1] && rest[j - 1] in rest;
          var q :| 0 <= q < |ks| - 1 && ks[1..][q] == r[j];
          assert ks[0] == r[0] && ks[q + 1] == r[j];
        } else {
          assert r == [ks[0]] + rest && r[i] == rest[i - 1] && r[j] == rest[j - 1];
          assert Before(ks[1..], rest[i - 1], rest[j - 1]);
          var p, q :| 0 <= p < q < |ks| - 1 && ks[1..][p] == rest[i - 1] && ks[1..][q] == rest[j - 1];
          assert ks[p + 1] == r[i] && ks[q + 1] == r[j];
        }
      }
    }
  }

  /** The second pass: one message per well-formed removed key. */
  function RemovedPass(ks: seq<string>, before: map<string, Doc>): seq<Emission>
    requires forall i :: 0 <= i < |ks| ==> ks[i] in before
  {
    if |ks| == 0 then []
    else
      (if WellFormed(ks[0]) then [RemovedKeyMessage(ks[0], before[ks[0]])] else [])
      + RemovedPass(ks[1..], before)
  }

  /** All `data` messages of one poll cycle, new keys first, then removed keys. */
  function DataMessages(prev: Cache, next: Cache): (r: seq<Emission>)
    requires Valid(prev) && Valid(next)
    ensures forall i :: 0 <= i < |r| ==> r[i].Data?
  {
    var removed := RemovedKeys(prev.order, next.docs);
    DataMessagesAreData(prev, next);
    NewKeyPass(next.order, prev.docs, next.docs) + RemovedPass(removed, prev.docs)
  }

  lemma DataMessagesAreData(prev: Cache, next: Cache)
    requires Valid(prev) && Valid(next)
    ensures forall m :: m in NewKeyPass(next.order, prev.docs, next.docs) ==> m.Data?
    ensures forall m :: m in RemovedPass(RemovedKeys(prev.order, next.docs), prev.docs) ==> m.Data?
  {
    NewKeyPassShape(next.order, prev.docs, next.docs);
    RemovedPassShape(RemovedKeys(prev.order, next.docs), prev.docs);
  }

  lemma {:induction false} NewKeyPassShape(ks: seq<string>, before: map<string, Doc>, after: map<string, Doc>)
    requires forall i :: 0 <= i < |ks| ==> ks[i] in after
    ensures forall m :: m in NewKeyPass(ks, before, after) ==>
      exists k :: k in ks && WellFormed(k) && m == NewKeyMessage(k, before, after[k])
    ensures forall k :: k in ks && WellFormed(k) ==> NewKeyMessage(k, before, after[k]) in NewKeyPass(ks, before, after)
  {
    if |ks| > 0 {
      NewKeyPassShape(ks[1..], before, after);
      assert forall k :: k in ks[1..] ==> k in ks;
      assert forall k :: k in ks ==> k == ks[0] || k in ks[1..];
    }
  }

  lemma {:induction false} RemovedPassShape(ks: seq<string>, before: map<string, Doc>)
    requires forall i :: 0 <= i < |ks| ==> ks[i] in before
    ensures forall m :: m in RemovedPass(ks, before) ==>
      exists k :: k in ks && WellFormed(k) && m == RemovedKeyMessage(k, before[k])
    ensures forall k :: k in ks && WellFormed(k) ==> RemovedKeyMessage(k, before[k]) in RemovedPass(ks, before)
  {
    if |ks| > 0 {
      RemovedPassShape(ks[1..], before);
      assert forall k :: k in ks[1..] ==> k in ks;
      assert forall k :: k in ks ==> k == ks[0] || k in ks[1..];
    }
  }
}

=== FILE: difflaws.dfy ===
/** What the `data` messages of a poll cycle promise: which message each key
    receives, and that a client applying them field by field to the previous
    cache arrives at the new one. */
module DiffLaws {
  import opened Wrappers
  import opened Values
  import opened CacheKeys
  import opened Protocol
  import opened Snapshot
  import opened Diff

  /** A client's copy of the documents, under the same composite keys. */
  type Store = map<string, Doc>

  /** The entry a store holds for `k`, empty when it holds none. */
  function Lookup(s: Store, k: string): Doc
  {
    if k in s then s[k] else map[]
  }

  /** The key a data message addresses. */
  function Target(m: Emission): string
    requires m.Data?
  {
    MakeKey(m.collection, m.id)
  }

  /** The client's reading of one data message: drop the `unset` fields, then
      write the `set` fields. */
  function Patch(d: Doc, m: Emission): (r: Doc)
    requires m.Data?
    ensures forall f :: f in r <==>
      (m.toSet.Some? && f in m.toSet.value) || (f in d && (m.toUnset.None? || f !in m.toUnset.value))
  {
    var kept := if m.toUnset.Some? then d - m.toUnset.value else d;
    if m.toSet.Some? then Extend(kept, m.toSet.value) else kept
  }

  /** Applies the data messages in order; other emissions leave the store alone. */
  function ApplyAll(s: Store, msgs: seq<Emission>): Store
    decreases |msgs|
  {
    if |msgs| == 0 then s
    else if msgs[0].Data? then
      var k := Target(msgs[0]);
      ApplyAll(s[k := Patch(Lookup(s, k), msgs[0])], msgs[1..])
    else ApplyAll(s, msgs[1..])
  }

  lemma {:induction false} ApplyAllAppend(s: Store, a: seq<Emission>, b: seq<Emission>)
    ensures ApplyAll(s, a + b) == ApplyAll(ApplyAll(s, a), b)
    decreases |a|
  {
    if |a| == 0 {
      assert a + b == b;
    } else {
      assert (a + b)[1..] == a[1..] + b;
      if a[0].Data? {
        var k := Target(a[0]);
        ApplyAllAppend(s[k := Patch(Lookup(s, k), a[0])], a[1..], b);
      } else {
        ApplyAllAppend(s, a[1..], b);
      }
    }
  }

  /** Emissions other than data messages leave the store alone. */
  lemma {:induction false} ApplyAllSkipsOthers(s: Store, msgs: seq<Emission>)
    requires forall i :: 0 <= i < |msgs| ==> !msgs[i].Data?
    ensures ApplyAll(s, msgs) == s
    decreases |msgs|
  {
    if |msgs| > 0 {
      ApplyAllSkipsOthers(s, msgs[1..]);
    }
  }

  /** A single data message patches the entry it addresses. */
  lemma ApplyOne(s: Store, m: Emission)
    requires m.Data?
    ensures ApplyAll(s, [m]) == s[Target(m) := Patch(Lookup(s, Target(m)), m)]
  {
    var k := Target(m);
    assert [m][1..] == [];
    assert ApplyAll(s, [m]) == ApplyAll(s[k := Patch(Lookup(s, k), m)], []);
  }

  /** The message for a key addresses that key. */
  lemma TargetOfKeyMessages(k: string, before: map<string, Doc>, after: Doc, gone: Doc)
    requires WellFormed(k)
    ensures Target(NewKeyMessage(k, before, after)) == k
    ensures Target(RemovedKeyMessage(k, gone)) == k
  {
    ParseKeyInverse(k);
  }

  /** Patching an entry with its changed-key message yields the new entry exactly. */
  lemma PatchChanged(collection: string, id: string, before: Doc, after: Doc)
    ensures Patch(before, ChangedMessage(collection, id, before, after)) == after
  {
    var m := ChangedMessage(collection, id, before, after);
    var d := FieldDelta(before, after);
    var r := Patch(before, m);
    forall f | f in r
      ensures f in after && r[f] == after[f]
    {
      if f in d.changed {
        assert m.toSet == Some(d.changed);
      } else {
        assert f in before && f !in d.removed;
      }
    }
    assert r.Keys == after.Keys;
  }

  /** The effect of the first pass: each well-formed key of `ks` is patched
      with its message once; every other entry is untouched. */
  lemma NewKeyPassEffect(s: Store, ks: seq<string>, before: map<string, Doc>, after: map<string, Doc>)
    requires Distinct(ks)
    requires forall i :: 0 <= i < |ks| ==> ks[i] in after
    ensures forall k :: (Lookup(ApplyAll(s, NewKeyPass(ks, before, after)), k) ==
      (if k in ks && WellFormed(k) then Patch(Lookup(s, k), NewKeyMessage(k, before, after[k]))
       else Lookup(s, k)))
  {
    forall k
      ensures Lookup(ApplyAll(s, NewKeyPass(ks, before, after)), k) ==
        (if k in ks && WellFormed(k) then Patch(Lookup(s, k), NewKeyMessage(k, before, after[k]))
         else Lookup(s, k))
    {
      NewKeyPassAt(s, ks, before, after, k);
    }
  }

  /** The first pass at one key, by induction on the key list. */
  lemma {:induction false} NewKeyPassAt(s: Store, ks: seq<string>, before: map<string, Doc>, after: map<string, Doc>, k: string)
    requires Distinct(ks)
    requires forall i :: 0 <= i < |ks| ==> ks[i] in after
    ensures Lookup(ApplyAll(s, NewKeyPass(ks, before, after)), k) ==
      (if k in ks && WellFormed(k) then Patch(Lookup(s, k), NewKeyMessage(k, before, after[k]))
       else Lookup(s, k))
    decreases |ks|
  {
    if |ks| > 0 {
      var k0 := ks[0];
      var rest := ks[1..];
      assert Distinct(rest);
      assert k0 !in rest;
      var pre := if WellFormed(k0) then [NewKeyMessage(k0, before, after[k0])] else [];
      assert NewKeyPass(ks, before, after) == pre + NewKeyPass(rest, before, after);
      ApplyAllAppend(s, pre, NewKeyPass(rest, before, after));
      var s1 := ApplyAll(s, pre);
      if WellFormed(k0) {
        TargetOfKeyMessages(k0, before, after[k0], map[]);
        ApplyOne(s, pre[0]);
      } else {
        assert s1 == s;
      }
      NewKeyPassAt(s1, rest, before, after, k);
      assert k in ks <==> k == k0 || k in rest;
      if k != k0 {
        assert Lookup(s1, k) == Lookup(s, k);
      }
    }
  }

  /** The effect of the second pass, in the same terms. */
  lemma {:induction false} RemovedPassEffect(s: Store, ks: seq<string>, before: map<string, Doc>)
    requires Distinct(ks)
    requires forall i :: 0 <= i < |ks| ==> ks[i] in before
    ensures forall k :: (Lookup(ApplyAll(s, RemovedPass(ks, before)), k) ==
      (if k in ks && WellFormed(k) then Patch(Lookup(s, k), RemovedKeyMessage(k, before[k]))
       else Lookup(s, k)))
    decreases |ks|
  {
    if |ks| > 0 {
      var k0 := ks[0];
      var rest := ks[1..];
      assert Distinct(rest);
      assert k0 !in rest;
      var pre := if WellFormed(k0) then [RemovedKeyMessage(k0, before[k0])] else [];
      ApplyAllAppend(s, pre, RemovedPass(rest, before));
      var s1 := ApplyAll(s, pre);
      if WellFormed(k0) {
        TargetOfKeyMessages(k0, before, map[], before[k0]);
        ApplyOne(s, pre[0]);
      } else {
        assert s1 == s;
      }
      RemovedPassEffect(s1, rest, before);
      assert forall k :: k in ks <==> k == k0 || k in rest;
    }
  }

  /** The state after both passes, per key: a well-formed key of either
      cache is patched with its message; any other key keeps its entry. */
  lemma PassesEffect(prev: Cache, next: Cache)
    requires Valid(prev) && Valid(next)
    ensures forall k :: k in next.docs && WellFormed(k) ==>
      Lookup(ApplyAll(prev.docs, DataMessages(prev, next)), k) ==
      Patch(Lookup(prev.docs, k), NewKeyMessage(k, prev.docs, next.docs[k]))
    ensures forall k :: k in prev.docs && k !in next.docs && WellFormed(k) ==>
      Lookup(ApplyAll(prev.docs, DataMessages(prev, next)), k) ==
      Patch(prev.docs[k], RemovedKeyMessage(k, prev.docs[k]))
    ensures forall k :: (!WellFormed(k) || (k !in prev.docs && k !in next.docs)) ==>
      Lookup(ApplyAll(prev.docs, DataMessages(prev, next)), k) == Lookup(prev.docs, k)
  {
    var removed := RemovedKeys(prev.order, next.docs);
    var first := NewKeyPass(next.order, prev.docs, next.docs);
    var second := RemovedPass(removed, prev.docs);
    ApplyAllAppend(prev.docs, first, second);
    var s1 := ApplyAll(prev.docs, first);
    NewKeyPassEffect(prev.docs, next.order, prev.docs, next.docs);
    RemovedPassEffect(s1, removed, prev.docs);
  }

  /** An added entry arrives as its fields without `_id`. */
  lemma PatchAdded(collection: string, id: string, after: Doc)
    ensures Patch(map[], AddedMessage(collection, id, after)) - {IdField} == after - {IdField}
  {
  }

  /** A removed entry keeps nothing but `_id`. */
  lemma PatchRemoved(collection: string, id: string, before: Doc)
    ensures Patch(before, RemovedMessage(collection, id, before)) - {IdField} == map[]
  {
    var r := Patch(before, RemovedMessage(collection, id, before));
    assert forall f :: f in r ==> f == IdField;
  }

  /** The round trip at one well-formed key. */
  lemma RoundTripAt(prev: Cache, next: Cache, k: string)
    requires Valid(prev) && Valid(next) && WellFormed(k)
    ensures k in prev.docs && k in next.docs ==>
      Lookup(ApplyAll(prev.docs, DataMessages(prev, next)), k) == next.docs[k]
    ensures Lookup(ApplyAll(prev.docs, DataMessages(prev, next)), k) - {IdField} ==
      Lookup(next.docs, k) - {IdField}
  {
    PassesEffect(prev, next);
    var r := Lookup(ApplyAll(prev.docs, DataMessages(prev, next)), k);
    var expected := Lookup(next.docs, k);
    if k in next.docs {
      assert expected == next.docs[k];
      var (c, id) := ParseKey(k).value;
      var m := NewKeyMessage(k, prev.docs, next.docs[k]);
      assert r == Patch(Lookup(prev.docs, k), m);
      if k in prev.docs {
        assert m == ChangedMessage(c, id, prev.docs[k], next.docs[k]);
        PatchChanged(c, id, prev.docs[k], next.docs[k]);
        assert r == expected;
      } else {
        assert m == AddedMessage(c, id, next.docs[k]);
        PatchAdded(c, id, next.docs[k]);
        assert r - {IdField} == expected - {IdField};
      }
    } else if k in prev.docs {
      assert expected == map[];
      var (c, id) := ParseKey(k).value;
      assert r == Patch(prev.docs[k], RemovedMessage(c, id, prev.docs[k]));
      PatchRemoved(c, id, prev.docs[k]);
      assert r - {IdField} == map[];
      assert expected - {IdField} == map[];
    } else {
      assert r == map[] && expected == map[];
    }
  }

  /** The diff round trip: applying the cycle's data messages to the previous
      cache reproduces the new cache at every well-formed key, exactly for
      keys present in both, and up to `_id` for keys added or removed (a
      removed document is left as an entry with every field but `_id`
      unset). A malformed key, which both passes skip, keeps its old entry. */
  lemma DiffRoundTrip(prev: Cache, next: Cache)
    requires Valid(prev) && Valid(next)
    ensures forall k :: WellFormed(k) && k in prev.docs && k in next.docs ==>
      Lookup(ApplyAll(prev.docs, DataMessages(prev, next)), k) == next.docs[k]
    ensures forall k :: WellFormed(k) ==>
      Lookup(ApplyAll(prev.docs, DataMessages(prev, next)), k) - {IdField} == Lookup(next.docs, k) - {IdField}
    ensures forall k :: !WellFormed(k) ==>
      Lookup(ApplyAll(prev.docs, DataMessages(prev, next)), k) == Lookup(prev.docs, k)
  {
    PassesEffect(prev, next);
    forall k | WellFormed(k)
      ensures k in prev.docs && k in next.docs ==>
        Lookup(ApplyAll(prev.docs, DataMessages(prev, next)), k) == next.docs[k]
      ensures Lookup(ApplyAll(prev.docs, DataMessages(prev, next)), k) - {IdField} == Lookup(next.docs, k) - {IdField}
    {
      RoundTripAt(prev, next, k);
    }
  }

  /** The finding at the changed-key branch: a new entry whose `length` is a
      number is walked by index, so a change to any other field is not sent
      and the client keeps the stale value; the corrected message carries it. */
  lemma LengthFieldHidesChange()
    ensures var before := map[IdField := VStr("a"), "length" := VNum(3), "n" := VNum(1)];
            var after := before["n" := VNum(2)];
            && ChangedMessageAsWritten("items", "a", before, after) == Data("items", "a", None, None)
            && Patch(before, ChangedMessageAsWritten("items", "a", before, after)) != after
            && ChangedMessage("items", "a", before, after) == Data("items", "a", Some(map["n" := VNum(2)]), None)
            && Patch(before, ChangedMessage("items", "a", before, after)) == after
  {
    var before := map[IdField := VStr("a"), "length" := VNum(3), "n" := VNum(1)];
    var after := before["n" := VNum(2)];
    forall i | 0 <= i < 3
      ensures NumberText(i) !in after
    {
      assert |NumberText(i)| == 1 && '0' <= NumberText(i)[0] <= '9';
    }
    assert WalkedNames(after) == {};
    assert FieldDeltaAsWritten(before, after).changed == map[];
    assert FieldDeltaAsWritten(before, after).removed == {};
    var d := FieldDelta(before, after);
    assert d.changed.Keys == {"n"};
    assert d.changed == map["n" := VNum(2)];
    assert d.removed == {};
    assert Patch(before, ChangedMessageAsWritten("items", "a", before, after))["n"] == VNum(1);
    PatchChanged("items", "a", before, after);
  }
}

module DiffCoverage {
  import opened Wrappers
  import opened Values
  import opened CacheKeys
  import opened Protocol
  import opened Snapshot
  import opened Diff
  import opened DiffLaws

  /** How many data messages of `msgs` address key `k`. */
  function Addressing(msgs: seq<Emission>, k: string): nat
  {
    if |msgs| == 0 then 0
    else (if msgs[0].Data? && Target(msgs[0]) == k then 1 else 0) + Addressing(msgs[1..], k)
  }

  lemma {:induction false} AddressingAppend(a: seq<Emission>, b: seq<Emission>, k: string)
    ensures Addressing(a + b, k) == Addressing(a, k) + Addressing(b, k)
    decreases |a|
  {
    if |a| == 0 {
      assert a + b == b;
    } else {
      assert (a + b)[1..] == a[1..] + b;
      AddressingAppend(a[1..], b, k);
    }
  }

  /** A data message parsed from a key addresses a well-formed key. */
  lemma TargetWellFormed(m: Emission)
    requires m.Data? && Separator !in m.collection && Separator !in m.id
    ensures WellFormed(Target(m))
  {
    KeyRoundTrip(m.collection, m.id);
  }

  lemma {:induction false} NewKeyPassAddressing(ks: seq<string>, before: map<string, Doc>, after: map<string, Doc>, k: string)
    requires Distinct(ks)
    requires forall i :: 0 <= i < |ks| ==> ks[i] in after
    ensures Addressing(NewKeyPass(ks, before, after), k) == (if k in ks && WellFormed(k) then 1 else 0)
    decreases |ks|
  {
    if |ks| > 0 {
      var k0 := ks[0];
      assert Distinct(ks[1..]);
      assert k0 !in ks[1..];
      assert forall x :: x in ks <==> x == k0 || x in ks[1..];
      var pre := if WellFormed(k0) then [NewKeyMessage(k0, before, after[k0])] else [];
      AddressingAppend(pre, NewKeyPass(ks[1..], before, after), k);
      NewKeyPassAddressing(ks[1..], before, after, k);
      if WellFormed(k0) {
        TargetOfKeyMessages(k0, before, after[k0], map[]);
        assert Addressing(pre, k) == (if k == k0 then 1 else 0);
      }
    }
  }

  lemma {:induction false} RemovedPassAddressing(ks: seq<string>, before: map<string, Doc>, k: string)
    requires Distinct(ks)
    requires forall i :: 0 <= i < |ks| ==> ks[i] in before
    ensures Addressing(RemovedPass(ks, before), k) == (if k in ks && WellFormed(k) then 1 else 0)
    decreases |ks|
  {
    if |ks| > 0 {
      var k0 := ks[0];
      assert Distinct(ks[1..]);
      assert k0 !in ks[1..];
      assert forall x :: x in ks <==> x == k0 || x in ks[1..];
      var pre := if WellFormed(k0) then [RemovedKeyMessage(k0, before[k0])] else [];
      AddressingAppend(pre, RemovedPass(ks[1..], before), k);
      RemovedPassAddressing(ks[1..], before, k);
      if WellFormed(k0) {
        TargetOfKeyMessages(k0, map[], map[], before[k0]);
        assert Addressing(pre, k) == (if k == k0 then 1 else 0);
      }
    }
  }

  /** Exactly one data message per well-formed key of either cache, and none
      for a malformed key or a key neither cache holds. */
  lemma OneMessagePerKey(prev: Cache, next: Cache, k: string)
    requires Valid(prev) && Valid(next)
    ensures Addressing(DataMessages(prev, next), k) ==
      (if WellFormed(k) && (k in prev.docs || k in next.docs) then 1 else 0)
  {
    var removed := RemovedKeys(prev.order, next.docs);
    AddressingAppend(NewKeyPass(next.order, prev.docs, next.docs), RemovedPass(removed, prev.docs), k);
    NewKeyPassAddressing(next.order, prev.docs, next.docs, k);
    RemovedPassAddressing(removed, prev.docs, k);
  }

  /** The inductive step shared by both passes: prepending at most one
      message, for the first key, to messages that address the remaining
      keys in their order keeps the messages in key order. */
  lemma ConsInOrder(ks: seq<string>, r: seq<Emission>, h: nat, rest: seq<Emission>)
    requires |ks| > 0 && h <= 1 && |r| == h + |rest|
    requires forall i :: h <= i < |r| ==> r[i] == rest[i - h]
    requires h == 1 ==> r[0].Data? && Target(r[0]) == ks[0]
    requires forall i :: 0 <= i < |rest| ==> rest[i].Data? && Target(rest[i]) in ks[1..]
    requires forall i, j :: 0 <= i < j < |rest| ==>
      rest[i].Data? && rest[j].Data? && Before(ks[1..], Target(rest[i]), Target(rest[j]))
    ensures forall i :: 0 <= i < |r| ==> r[i].Data? && Target(r[i]) in ks
    ensures forall i, j :: 0 <= i < j < |r| ==> r[i].Data? && r[j].Data? && Before(ks, Target(r[i]), Target(r[j]))
  {
    forall i | 0 <= i < |r|
      ensures r[i].Data? && Target(r[i]) in ks
    {
      if i >= h {
        assert Target(rest[i - h]) in ks[1..];
      }
    }
    forall i, j | 0 <= i < j < |r|
      ensures r[i].Data? && r[j].Data? && Before(ks, Target(r[i]), Target(r[j]))
    {
      var b := Target(rest[j - h]);
      assert b in ks[1..];
      if i < h {
        var q :| 0 <= q < |ks| - 1 && ks[1..][q] == b;
        assert ks[0] == Target(r[i]) && ks[q + 1] == b;
      } else {
        assert Before(ks[1..], Target(rest[i - h]), b);
        var p, q :| 0 <= p < q < |ks| - 1 && ks[1..][p] == Target(rest[i - h]) && ks[1..][q] == b;
        assert ks[p + 1] == Target(r[i]) && ks[q + 1] == b;
      }
    }
  }

  /** The first pass addresses keys of `ks`, in the order of `ks`. */
  lemma {:induction false} NewKeyPassInOrder(ks: seq<string>, before: map<string, Doc>, after: map<string, Doc>)
    requires forall i :: 0 <= i < |ks| ==> ks[i] in after
    ensures forall i :: 0 <= i < |NewKeyPass(ks, before, after)| ==>
      NewKeyPass(ks, before, after)[i].Data? && Target(NewKeyPass(ks, before, after)[i]) in ks
    ensures forall i, j :: 0 <= i < j < |NewKeyPass(ks, before, after)| ==>
      NewKeyPass(ks, before, after)[i].Data? && NewKeyPass(ks, before, after)[j].Data? &&
      Before(ks, Target(NewKeyPass(ks, before, after)[i]), Target(NewKeyPass(ks, before, after)[j]))
    decreases |ks|
  {
    if |ks| > 0 {
      var rest := NewKeyPass(ks[1..], before, after);
      NewKeyPassInOrder(ks[1..], before, after);
      var head: seq<Emission> := if WellFormed(ks[0]) then [NewKeyMessage(ks[0], before, after[ks[0]])] else [];
      if WellFormed(ks[0]) {
        TargetOfKeyMessages(ks[0], before, after[ks[0]], map[]);
      }
      assert NewKeyPass(ks, before, after) == head + rest;
      ConsInOrder(ks, head + rest, |head|, rest);
    }
  }

  /** The second pass addresses keys of `ks`, in the order of `ks`. */
  lemma {:induction false} RemovedPassInOrder(ks: seq<string>, before: map<string, Doc>)
    requires forall i :: 0 <= i < |ks| ==> ks[i] in before
    ensures forall i :: 0 <= i < |RemovedPass(ks, before)| ==>
      RemovedPass(ks, before)[i].Data? && Target(RemovedPass(ks, before)[i]) in ks
    ensures forall i, j :: 0 <= i < j < |RemovedPass(ks, before)| ==>
      RemovedPass(ks, before)[i].Data? && RemovedPass(ks, before)[j].Data? &&
      Before(ks, Target(RemovedPass(ks, before)[i]), Target(RemovedPass(ks, before)[j]))
    decreases |ks|
  {
    if |ks| > 0 {
      var rest := RemovedPass(ks[1..], before);
      RemovedPassInOrder(ks[1..], before);
      var head: seq<Emission> := if WellFormed(ks[0]) then [RemovedKeyMessage(ks[0], before[ks[0]])] else [];
      if WellFormed(ks[0]) {
        TargetOfKeyMessages(ks[0], before, map[], before[ks[0]]);
      }
      assert RemovedPass(ks, before) == head + rest;
      ConsInOrder(ks, head + rest, |head|, rest);
    }
  }

  /** Concatenating the two passes: each part keeps its own order, the
      second one through the order `removed` inherits from `prior`. */
  lemma ConcatInOrder(r: seq<Emission>, first: seq<Emission>, second: seq<Emission>,
                      keys: seq<string>, removed: seq<string>, prior: seq<string>)
    requires r == first + second
    requires forall i :: 0 <= i < |first| ==> first[i].Data? && Target(first[i]) in keys
    requires forall i, j :: 0 <= i < j < |first| ==>
      first[i].Data? && first[j].Data? && Before(keys, Target(first[i]), Target(first[j]))
    requires forall i :: 0 <= i < |second| ==> second[i].Data? && Target(second[i]) in removed
    requires forall i, j :: 0 <= i < j < |second| ==>
      second[i].Data? && second[j].Data? && Before(removed, Target(second[i]), Target(second[j]))
    requires forall i, j :: 0 <= i < j < |removed| ==> Before(prior, removed[i], removed[j])
    ensures forall i :: 0 <= i < |first| ==> r[i].Data? && Target(r[i]) in keys
    ensures forall i :: |first| <= i < |r| ==> r[i].Data? && Target(r[i]) in removed
    ensures forall i, j :: 0 <= i < j < |first| ==>
      r[i].Data? && r[j].Data? && Before(keys, Target(r[i]), Target(r[j]))
    ensures forall i, j :: |first| <= i < j < |r| ==>
      r[i].Data? && r[j].Data? && Before(prior, Target(r[i]), Target(r[j]))
  {
    var n := |first|;
    forall i | 0 <= i < n
      ensures r[i] == first[i]
    {
    }
    forall i | n <= i < |r|
      ensures r[i] == second[i - n]
    {
    }
    forall i, j | n <= i < j < |r|
      ensures r[i].Data? && r[j].Data? && Before(prior, Target(r[i]), Target(r[j]))
    {
      assert Before(removed, Target(second[i - n]), Target(second[j - n]));
      var p, q :| 0 <= p < q < |removed| && removed[p] == Target(r[i]) && removed[q] == Target(r[j]);
      assert Before(prior, removed[p], removed[q]);
    }
  }

  /** The order of a poll's data messages: first the keys the new cache
      holds, in its key order, then the removed keys, in the old cache's key
      order. */
  lemma DataMessagesInOrder(prev: Cache, next: Cache)
    requires Valid(prev) && Valid(next)
    ensures forall i :: 0 <= i < |NewKeyPass(next.order, prev.docs, next.docs)| ==>
      Target(DataMessages(prev, next)[i]) in next.docs
    ensures forall i :: |NewKeyPass(next.order, prev.docs, next.docs)| <= i < |DataMessages(prev, next)| ==>
      Target(DataMessages(prev, next)[i]) in prev.docs && Target(DataMessages(prev, next)[i]) !in next.docs
    ensures forall i, j :: 0 <= i < j < |NewKeyPass(next.order, prev.docs, next.docs)| ==>
      Before(next.order, Target(DataMessages(prev, next)[i]), Target(DataMessages(prev, next)[j]))
    ensures forall i, j :: |NewKeyPass(next.order, prev.docs, next.docs)| <= i < j < |DataMessages(prev, next)| ==>
      Before(prev.order, Target(DataMessages(prev, next)[i]), Target(DataMessages(prev, next)[j]))
  {
    var removed := RemovedKeys(prev.order, next.docs);
    NewKeyPassInOrder(next.order, prev.docs, next.docs);
    RemovedPassInOrder(removed, prev.docs);
    RemovedKeysInOrder(prev.order, next.docs);
    ConcatInOrder(DataMessages(prev, next), NewKeyPass(next.order, prev.docs, next.docs),
                  RemovedPass(removed, prev.docs), next.order, removed, prev.order);
  }

  /** What the message for a key present in both caches says: `set` holds
      exactly the new fields whose value differs, `unset` exactly the old
      field names the new entry lacks, and each is attached only when
      non-empty. */
  ghost predicate DescribesChange(m: Emission, before: Doc, after: Doc)
  {
    && m.Data?
    && (forall f :: (m.toSet.Some? && f in m.toSet.value) <==>
          (f in after && (f !in before || before[f] != after[f])))
    && (forall f :: m.toSet.Some? && f in m.toSet.value ==> m.toSet.value[f] == after[f])
    && (forall f :: (m.toUnset.Some? && f in m.toUnset.value) <==> (f in before && f !in after))
    && (m.toSet.Some? ==> m.toSet.value != map[])
    && (m.toUnset.Some? ==> m.toUnset.value != {})
  }

  /** A key only the new cache holds: `set` is every field but `_id`, no `unset`. */
  lemma AddedKeyMessage(prev: Cache, next: Cache, k: string)
    requires Valid(prev) && Valid(next)
    requires WellFormed(k) && k in next.docs && k !in prev.docs
    ensures Data(ParseKey(k).value.0, ParseKey(k).value.1, Some(next.docs[k] - {IdField}), None)
      in DataMessages(prev, next)
  {
    NewKeyPassShape(next.order, prev.docs, next.docs);
  }

  /** A key both caches hold gets a message described by `DescribesChange`,
      emitted even when it carries neither `set` nor `unset`. */
  lemma ChangedKeyMessage(prev: Cache, next: Cache, k: string)
    requires Valid(prev) && Valid(next)
    requires WellFormed(k) && k in next.docs && k in prev.docs
    ensures exists m :: (m in DataMessages(prev, next) && Target(m) == k &&
      DescribesChange(m, prev.docs[k], next.docs[k]))
  {
    NewKeyPassShape(next.order, prev.docs, next.docs);
    var m := NewKeyMessage(k, prev.docs, next.docs[k]);
    TargetOfKeyMessages(k, prev.docs, next.docs[k], map[]);
    assert m in DataMessages(prev, next);
  }

  /** A key only the old cache holds: no `set`; `unset` is every old field but `_id`. */
  lemma RemovedKeyMessageSent(prev: Cache, next: Cache, k: string)
    requires Valid(prev) && Valid(next)
    requires WellFormed(k) && k in prev.docs && k !in next.docs
    ensures Data(ParseKey(k).value.0, ParseKey(k).value.1, None, Some(prev.docs[k].Keys - {IdField}))
      in DataMessages(prev, next)
  {
    RemovedPassShape(RemovedKeys(prev.order, next.docs), prev.docs);
  }

  /** `_id` is never unset while entries carry it, and it is set only for a
      key whose `_id` value changed between the caches. */
  lemma IdFieldInMessages(prev: Cache, next: Cache)
    requires Valid(prev) && Valid(next)
    requires EntriesHaveIds(prev) && EntriesHaveIds(next)
    ensures forall m :: m in DataMessages(prev, next) && m.toUnset.Some? ==> IdField !in m.toUnset.value
    ensures forall m :: m in DataMessages(prev, next) && m.toSet.Some? && IdField in m.toSet.value ==>
      Target(m) in prev.docs && Target(m) in next.docs &&
      prev.docs[Target(m)][IdField] != next.docs[Target(m)][IdField]
  {
    NewKeyPassShape(next.order, prev.docs, next.docs);
    RemovedPassShape(RemovedKeys(prev.order, next.docs), prev.docs);
    forall m | m in DataMessages(prev, next)
      ensures m.toUnset.Some? ==> IdField !in m.toUnset.value
      ensures m.toSet.Some? && IdField in m.toSet.value ==>
        Target(m) in prev.docs && Target(m) in next.docs &&
        prev.docs[Target(m)][IdField] != next.docs[Target(m)][IdField]
    {
      if m in NewKeyPass(next.order, prev.docs, next.docs) {
        var k :| k in next.order && WellFormed(k) && m == NewKeyMessage(k, prev.docs, next.docs[k]);
        TargetOfKeyMessages(k, prev.docs, next.docs[k], map[]);
      } else {
        var k :| k in RemovedKeys(prev.order, next.docs) && WellFormed(k) && m == RemovedKeyMessage(k, prev.docs[k]);
      }
    }
  }

  lemma NothingRemoved(ks: seq<string>, after: map<string, Doc>)
    requires forall i :: 0 <= i < |ks| ==> ks[i] in after
    ensures RemovedKeys(ks, after) == []
  {
  }

  /** Polling twice with nothing changed: the second diff still sends one
      message per well-formed key, but none of them carries `set` or `unset`. */
  lemma RepollSendsEmptyMessages(c: Cache)
    requires Valid(c)
    ensures forall m :: m in DataMessages(c, c) ==> m.toSet.None? && m.toUnset.None?
    ensures forall k :: WellFormed(k) && k in c.docs ==> Addressing(DataMessages(c, c), k) == 1
  {
    NewKeyPassShape(c.order, c.docs, c.docs);
    RemovedPassShape(RemovedKeys(c.order, c.docs), c.docs);
    NothingRemoved(c.order, c.docs);
    forall k | WellFormed(k) && k in c.docs
      ensures Addressing(DataMessages(c, c), k) == 1
    {
      OneMessagePerKey(c, c, k);
    }
  }
}

=== FILE: protocol.dfy ===
/** Messages the server emits to one client. */
module Protocol {
  import opened Wrappers
  import opened Values

  /** The error object attached to a refused subscription. */
  datatype SubError = SubError(code: int, reason: string)

  /** Error code sent when a client subscribes to an unregistered name. */
  const UnknownNameCode: int := 17
  const UnknownName: SubError := SubError(UnknownNameCode, "Unknown name")

  /** An emission on the socket. `Data` and `NoSub` travel on the 'livedata'
      event; `Ready` travels on the 'subscription_ready' event and carries the
      bare subscription id. `toSet` and `toUnset` are the optional `set` and
      `unset` members of a data message. */
  datatype Emission =
    | Data(collection: string, id: string, toSet: Option<Doc>, toUnset: Option<set<string>>)
    | NoSub(subId: Option<Value>, error: Option<SubError>)
    | Ready(subId: Option<Value>)
}

=== FILE: registry.dfy ===
/** The publication registry (`Meteor.publish`) and the collection registry
    (`Meteor.Collection`, its `insert` id allocation and `api`). */
module Registry {
  import opened Wrappers
  import opened Values

  /** A publish option: a literal, or a function of the subscription's params. */
  datatype Setting = Literal(v: Value) | FromParams(f: Option<Value> -> Option<Value>)

  /** The options object of `Meteor.publish`; `collection` is the `_name` of
      the collection object passed, if any. */
  datatype PublishOptions = PublishOptions(
    collection: Option<string>,
    selector: Option<Setting>,
    sort: Option<Setting>,
    skip: Option<Setting>,
    limit: Option<Setting>)

  const NoOptions: PublishOptions := PublishOptions(None, None, None, None, None)

  /** What a publication hands to the data source for one subscription. */
  datatype Query = Query(selector: Option<Value>, sort: Option<Value>, skip: Option<Value>, limit: Option<Value>)

  /** A registered publication: the collection it reads and its options. */
  datatype Publication = Publication(collection: string, options: PublishOptions)

  type Publications = map<string, Publication>

  /** A method registered through `api`, known by an opaque reference. */
  datatype Method = Method(ref: nat)

  /** A collection object: its `_name` and its `_api` method table. */
  datatype Collection = Collection(name: string, api: map<string, Method>)

  type Collections = map<string, Collection>

  datatype RegistryError =
    | NoCollectionToPublish(name: string)
    | AnonymousCollection

  /** The resolver `opt(key, or)`: a falsy literal or a missing option falls
      back to `or`; a function option is applied to the params. */
  function Resolve(setting: Option<Setting>, fallback: Option<Value>, params: Option<Value>): (r: Option<Value>)
    ensures setting.Some? && setting.value.FromParams? ==> r == setting.value.f(params)
    ensures setting.Some? && setting.value.Literal? && Truthy(setting.value.v) ==> r == Some(setting.value.v)
    ensures setting.None? || (setting.value.Literal? && !Truthy(setting.value.v)) ==> r == fallback
  {
    match setting
    case Some(FromParams(f)) => f(params)
    case Some(Literal(v)) => if Truthy(v) then Some(v) else fallback
    case None => fallback
  }

  /** The query a publication runs for a subscription with `params`: the
      selector defaults to `{}`, sort, skip and limit to undefined. */
  function ResolveQuery(options: PublishOptions, params: Option<Value>): Query
  {
    Query(
      Resolve(options.selector, Some(VObj(map[])), params),
      Resolve(options.sort, None, params),
      Resolve(options.skip, None, params),
      Resolve(options.limit, None, params))
  }

  /** A query with no options reads every document of the collection in
      natural order: selector `{}`, no sort, skip or limit. */
  lemma DefaultQuery(params: Option<Value>)
    ensures ResolveQuery(NoOptions, params) == Query(Some(VObj(map[])), None, None, None)
  {
  }

  /** `Meteor.publish(name, options)`. A name already registered is logged
      and ignored; otherwise the collection comes from the options or from
      the collection registered under the same name, and without either the
      call throws. */
  function Publish(pubs: Publications, colls: Collections, name: string, options: Option<PublishOptions>)
    : (r: Result<Publications, RegistryError>)
    ensures name in pubs ==> r == Success(pubs)
    ensures r.Failure? <==> name !in pubs && options.GetOr(NoOptions).collection.None? && name !in colls
    ensures r.Failure? ==> r.error == NoCollectionToPublish(name)
    ensures r.Success? ==> name in r.value && r.value.Keys == pubs.Keys + {name}
    ensures r.Success? ==> forall n :: n in pubs ==> r.value[n] == pubs[n]
    ensures r.Success? && name !in pubs ==>
      r.value[name].options == options.GetOr(NoOptions) &&
      r.value[name].collection ==
        (if options.GetOr(NoOptions).collection.Some? then options.GetOr(NoOptions).collection.value
         else colls[name].name)
  {
    if name in pubs then Success(pubs)
    else
      var opts := options.GetOr(NoOptions);
      if opts.collection.Some? then Success(pubs[name := Publication(opts.collection.value, opts)])
      else if name in colls then Success(pubs[name := Publication(colls[name].name, opts)])
      else Failure(NoCollectionToPublish(name))
  }

  /** Every registered collection is stored under its own name. */
  ghost predicate NamedConsistently(colls: Collections)
  {
    forall n :: n in colls ==> colls[n].name == n
  }

  /** `Meteor.Collection(name)`: a falsy name throws; otherwise a fresh
      collection with an empty method table is registered under `name`,
      replacing any earlier collection of that name. */
  function NewCollection(colls: Collections, name: Option<string>): (r: Result<(Collections, Collection), RegistryError>)
    ensures name.None? || name == Some("") <==> r == Failure(AnonymousCollection)
    ensures r.Success? ==> r.value.1 == Collection(name.value, map[])
    ensures r.Success? ==> r.value.0 == colls[name.value := r.value.1]
    ensures r.Success? && NamedConsistently(colls) ==> NamedConsistently(r.value.0)
  {
    if name.None? || name.value == "" then Failure(AnonymousCollection)
    else
      var c := Collection(name.value, map[]);
      Success((colls[name.value := c], c))
  }

  /** `collection.api(methods)`: every method is added to the table, a new
      one replacing an earlier one of the same name. */
  function Api(c: Collection, methods: map<string, Method>): (r: Collection)
    ensures r.name == c.name
    ensures r.api.Keys == c.api.Keys + methods.Keys
    ensures forall m :: m in methods ==> r.api[m] == methods[m]
    ensures forall m :: m in c.api && m !in methods ==> r.api[m] == c.api[m]
  {
    c.(api := c.api + methods)
  }

  /** `collection.insert(doc)`: a document without a truthy `_id` is copied
      and given `freshId` (the value of `Meteor.uuid()`); one with an `_id` is
      passed on as it is. The result is the document handed to the store. */
  function InsertDoc(doc: Doc, freshId: string): (r: Doc)
    ensures HasTruthyId(doc) ==> r == doc
    ensures r.Keys == doc.Keys + {IdField}
    ensures !HasTruthyId(doc) ==> r[IdField] == VStr(freshId)
    ensures forall f :: f in doc && f != IdField ==> r[f] == doc[f]
    ensures freshId != "" ==> HasTruthyId(r)
  {
    if HasTruthyId(doc) then doc else doc[IdField := VStr(freshId)]
  }
}

=== FILE: server.dfy ===
/** The server as a whole: its registries and connections, the 'livedata'
    and 'handle' socket events, and the mutation dispatcher `run_handler`,
    which re-polls every socket after a successful mutation. */
module Server {
  import opened Wrappers
  import opened Values
  import opened Protocol
  import opened Snapshot
  import opened Registry
  import opened Sync

  type ConnId = nat

  datatype HandlerError =
      /** The payload is not an object: the `in` operator throws a TypeError
          on null, undefined, a number, a string or a boolean. */
    | NotAnObject
    | NoSuchCollection
    | NoApiMethod(name: string, collection: string)
    | BadHandlerType
      /** `insert` given null or undefined: reading `doc._id` throws. */
    | NotADocument
      /** `apply` given a number, string or boolean as `args` throws. */
    | ArgumentsNotAList
      /** The data source or the user function threw while performing the action. */
    | ActionFailed(action: Action)

  /** What a mutation asks of the data source or of user code. `Call` is a
      function installed by `api` under the name of a built-in mutator
      (`insert`, `update` or `remove`), which then replaces it. */
  datatype Action =
    | Insert(collection: string, doc: Doc)
    | Update(collection: string, selector: Option<Value>, mutator: Option<Value>, options: Option<Value>)
    | Remove(collection: string, selector: Option<Value>)
    | Invoke(collection: string, fn: Method, args: Option<Value>)
    | Call(collection: string, fn: Method, arguments: seq<Option<Value>>)

  /** A successful mutation and the sockets whose poll it requests. */
  datatype Outcome = Outcome(action: Action, polled: seq<ConnId>)

  /** The built-in mutator `name`, or the `api` function that replaced it. */
  function Mutator(c: Collection, name: string, args: seq<Option<Value>>, builtin: Action): Action
  {
    if name in c.api then Call(c.name, c.api[name], args) else builtin
  }

  /** The object the built-in `insert` copies from `args` before giving it an
      id: an object's own fields; an array's elements or a string's
      characters under their index names; nothing from a number or a
      boolean. Null and undefined make the `_id` read throw. */
  function InsertArgument(args: Option<Value>): (r: Result<Doc, HandlerError>)
    ensures r.Failure? <==> args.None? || args.value.VNull?
    ensures r.Failure? ==> r.error == NotADocument
    ensures r.Success? && args.value.VObj? ==> r.value == args.value.fields
    ensures r.Success? && (args.value.VNum? || args.value.VBool?) ==> r.value == map[]
    ensures r.Success? && args.value.VList? ==>
      r.value.Keys == IndexNames(|args.value.items|) &&
      forall i :: 0 <= i < |args.value.items| ==> r.value[NumberText(i)] == args.value.items[i]
    ensures r.Success? && args.value.VStr? ==>
      r.value.Keys == IndexNames(|args.value.s|) &&
      forall i :: 0 <= i < |args.value.s| ==> r.value[NumberText(i)] == VStr([args.value.s[i]])
    ensures r.Success? && !args.value.VObj? ==> IdField !in r.value
  {
    match args
    case None => Failure(NotADocument)
    case Some(VNull) => Failure(NotADocument)
    case Some(VObj(fields)) => Success(fields)
    case Some(VNum(_)) => Success(map[])
    case Some(VBool(_)) => Success(map[])
    case Some(VList(xs)) =>
      IndexNameIsNotId(|xs|);
      Success(IndexedCopy(xs))
    case Some(VStr(t)) =>
      IndexNameIsNotId(|t|);
      Success(IndexedCopy(seq(|t|, i requires 0 <= i < |t| => VStr([t[i]]))))
  }

  /** `func.apply(null, args)` accepts undefined, null or an object. */
  predicate ApplicableArguments(args: Option<Value>)
  {
    args.None? || args.value.VNull? || args.value.VList? || args.value.VObj?
  }

  /** `r` is what performing `a` gives: success when it completes, and
      `ActionFailed(a)` when it throws. */
  ghost predicate Settles(r: Result<Outcome, HandlerError>, a: Action, sockets: seq<ConnId>, completes: Action -> bool)
  {
    && (r.Success? <==> completes(a))
    && (r.Success? ==> r.value == Outcome(a, sockets))
    && (r.Failure? ==> r.error == ActionFailed(a))
  }

  function Perform(a: Action, sockets: seq<ConnId>, completes: Action -> bool): Result<Outcome, HandlerError>
  {
    if completes(a) then Success(Outcome(a, sockets)) else Failure(ActionFailed(a))
  }

  /** Whether the message names a registered collection. */
  predicate Found(colls: Collections, data: Doc)
  {
    "collection" in data && Text(data["collection"]) in colls
  }

  /** `run_handler(socket, data, sockets)`: resolve the collection, dispatch
      on `type`, perform the action, and on success request a poll of every
      socket given, the sender included. `completes` tells whether the data
      source or user function returns normally. Any thrown error ends the
      handler before the polls. */
  function RunHandler(colls: Collections, data: Doc, freshId: string, sockets: seq<ConnId>, completes: Action -> bool)
    : (r: Result<Outcome, HandlerError>)
    ensures r.Success? ==> r.value.polled == sockets
    ensures !Found(colls, data) ==> r == Failure(NoSuchCollection)
    ensures Found(colls, data) ==>
      (r == Failure(BadHandlerType) <==>
       Field(data, "type") !in {Some(VStr("insert")), Some(VStr("update")), Some(VStr("remove")), Some(VStr("method"))})
    ensures Found(colls, data) && Field(data, "type") == Some(VStr("insert")) ==>
      var c := colls[Text(data["collection"])];
      var args := Field(data, "args");
      && ("insert" in c.api ==> Settles(r, Call(c.name, c.api["insert"], [args]), sockets, completes))
      && ("insert" !in c.api && InsertArgument(args).Failure? ==> r == Failure(NotADocument))
      && ("insert" !in c.api && InsertArgument(args).Success? ==>
            Settles(r, Insert(c.name, InsertDoc(InsertArgument(args).value, freshId)), sockets, completes))
    ensures Found(colls, data) && Field(data, "type") == Some(VStr("update")) ==>
      var c := colls[Text(data["collection"])];
      var sel := Field(data, "selector");
      var mutator := Field(data, "mutator");
      var options := Field(data, "options");
      && ("update" in c.api ==> Settles(r, Call(c.name, c.api["update"], [sel, mutator, options]), sockets, completes))
      && ("update" !in c.api ==> Settles(r, Update(c.name, sel, mutator, options), sockets, completes))
    ensures Found(colls, data) && Field(data, "type") == Some(VStr("remove")) ==>
      var c := colls[Text(data["collection"])];
      var sel := Field(data, "selector");
      && ("remove" in c.api ==> Settles(r, Call(c.name, c.api["remove"], [sel]), sockets, completes))
      && ("remove" !in c.api ==> Settles(r, Remove(c.name, sel), sockets, completes))
    ensures Found(colls, data) && Field(data, "type") == Some(VStr("method")) ==>
      var c := colls[Text(data["collection"])];
      var m := PropertyKey(Field(data, "method"));
      var args := Field(data, "args");
      && (m !in c.api ==> r == Failure(NoApiMethod(m, c.name)))
      && (m in c.api && !ApplicableArguments(args) ==> r == Failure(ArgumentsNotAList))
      && (m in c.api && ApplicableArguments(args) ==> Settles(r, Invoke(c.name, c.api[m], args), sockets, completes))
  {
    if !Found(colls, data) then Failure(NoSuchCollection)
    else
      var c := colls[Text(data["collection"])];
      var kind := Field(data, "type");
      var args := Field(data, "args");
      var selector := Field(data, "selector");
      if kind == Some(VStr("insert")) then
        if "insert" in c.api then Perform(Call(c.name, c.api["insert"], [args]), sockets, completes)
        else
          match InsertArgument(args)
          case Failure(e) => Failure(e)
          case Success(doc) => Perform(Insert(c.name, InsertDoc(doc, freshId)), sockets, completes)
      else if kind == Some(VStr("update")) then
        var mutator := Field(data, "mutator");
        var options := Field(data, "options");
        Perform(Mutator(c, "update", [selector, mutator, options], Update(c.name, selector, mutator, options)),
                sockets, completes)
      else if kind == Some(VStr("remove")) then
        Perform(Mutator(c, "remove", [selector], Remove(c.name, selector)), sockets, completes)
      else if kind == Some(VStr("method")) then
        var m := PropertyKey(Field(data, "method"));
        if m !in c.api then Failure(NoApiMethod(m, c.name))
        else if !ApplicableArguments(args) then Failure(ArgumentsNotAList)
        else Perform(Invoke(c.name, c.api[m], args), sockets, completes)
      else Failure(BadHandlerType)
  }

  /** The 'handle' payload as it arrives, `None` standing for undefined.
      Only an object reaches the dispatch; an array has no `collection`
      property, so it names no collection; any other value makes the
      collection test itself throw. Every failure happens before a poll. */
  function HandlePayload(colls: Collections, payload: Option<Value>, freshId: string,
                         sockets: seq<ConnId>, completes: Action -> bool)
    : (r: Result<Outcome, HandlerError>)
    ensures !(payload.Some? && payload.value.VObj?) ==> r.Failure?
    ensures payload.None? || (payload.Some? && !payload.value.VObj? && !payload.value.VList?) ==>
      r == Failure(NotAnObject)
    ensures payload.Some? && payload.value.VList? ==> r == Failure(NoSuchCollection)
    ensures payload.Some? && payload.value.VObj? ==>
      r == RunHandler(colls, payload.value.fields, freshId, sockets, completes)
    ensures r.Success? ==> r.value.polled == sockets
  {
    match payload
    case Some(VObj(fields)) => RunHandler(colls, fields, freshId, sockets, completes)
    case Some(VList(_)) => Failure(NoSuchCollection)
    case _ => Failure(NotAnObject)
  }

  /** After `api` installs a function under the name of a built-in mutator,
      a mutation of that type runs the installed function, never the
      built-in. */
  lemma ApiReplacesMutators(colls: Collections, n: string, methods: map<string, Method>, kind: string,
                            data: Doc, freshId: string, sockets: seq<ConnId>, completes: Action -> bool)
    requires n in colls && Field(data, "collection") == Some(VStr(n))
    requires kind in {"insert", "update", "remove"} && kind in methods
    requires Field(data, "type") == Some(VStr(kind))
    ensures var r := RunHandler(colls[n := Api(colls[n], methods)], data, freshId, sockets, completes);
      && (r.Success? ==> r.value.action.Call? && r.value.action.fn == methods[kind] && r.value.action.collection == colls[n].name)
      && (r.Failure? ==> r.error.ActionFailed? && r.error.action.Call? && r.error.action.fn == methods[kind])
  {
    var updated := colls[n := Api(colls[n], methods)];
    assert Text(data["collection"]) == n;
    assert updated[n].api[kind] == methods[kind];
  }

  /** A built-in `insert` whose `args` is a number or a boolean stores a
      document holding nothing but the fresh id. */
  lemma PrimitiveInsertIsIdOnly(colls: Collections, n: string, data: Doc, freshId: string,
                                sockets: seq<ConnId>, completes: Action -> bool)
    requires n in colls && "insert" !in colls[n].api
    requires Field(data, "collection") == Some(VStr(n)) && Field(data, "type") == Some(VStr("insert"))
    requires Field(data, "args").Some? && (Field(data, "args").value.VNum? || Field(data, "args").value.VBool?)
    ensures var r := RunHandler(colls, data, freshId, sockets, completes);
      var a := Insert(colls[n].name, map[IdField := VStr(freshId)]);
      && (r.Success? <==> completes(a))
      && (r.Success? ==> r.value.action == a)
  {
    assert Text(data["collection"]) == n;
    assert InsertDoc(map[], freshId) == map[IdField := VStr(freshId)];
  }

  /** One emission addressed to one connection. */
  datatype Delivery = Delivery(to: ConnId, what: Emission)

  function Addressed(id: ConnId, out: seq<Emission>): (r: seq<Delivery>)
    ensures |r| == |out|
    ensures forall i :: 0 <= i < |out| ==> r[i] == Delivery(id, out[i])
  {
    seq(|out|, i requires 0 <= i < |out| => Delivery(id, out[i]))
  }

  ghost predicate AllValid(conns: map<ConnId, Connection>)
  {
    forall id :: id in conns ==> Valid(conns[id].cache)
  }

  ghost predicate DistinctIds(ids: seq<ConnId>)
  {
    forall i, j :: 0 <= i < j < |ids| ==> ids[i] != ids[j]
  }

  lemma DistinctTail(ids: seq<ConnId>)
    requires DistinctIds(ids) && |ids| > 0
    ensures DistinctIds(ids[1..])
    ensures forall x :: x in ids[1..] ==> x != ids[0]
    ensures forall x :: x in ids <==> x == ids[0] || x in ids[1..]
  {
    assert forall i :: 0 <= i < |ids| - 1 ==> ids[1..][i] == ids[i + 1];
  }

  /** What polling each of `ids` once, from the state `conns`, puts on the
      sockets: each connection's `Poll` output addressed to it, in list order. */
  function PollOutputs(conns: map<ConnId, Connection>, ids: seq<ConnId>, pubs: Publications, fetch: Fetch): seq<Delivery>
    requires AllValid(conns)
    requires forall i :: 0 <= i < |ids| ==> ids[i] in conns
    decreases |ids|
  {
    if |ids| == 0 then []
    else Addressed(ids[0], Poll(conns[ids[0]], pubs, fetch).out) + PollOutputs(conns, ids[1..], pubs, fetch)
  }

  /** `PollOutputs` does not read a connection it does not list. */
  lemma {:induction false} PollOutputsSkips(conns: map<ConnId, Connection>, id: ConnId, c: Connection, ids: seq<ConnId>,
                                            pubs: Publications, fetch: Fetch)
    requires AllValid(conns) && AllValid(conns[id := c])
    requires forall i :: 0 <= i < |ids| ==> ids[i] in conns
    requires id !in ids
    ensures PollOutputs(conns[id := c], ids, pubs, fetch) == PollOutputs(conns, ids, pubs, fetch)
    decreases |ids|
  {
    if |ids| > 0 {
      assert ids[0] != id && forall x :: x in ids[1..] ==> x in ids;
      PollOutputsSkips(conns, id, c, ids[1..], pubs, fetch);
    }
  }

  /** Polls the connections `ids`, in order. With distinct ids, every
      listed connection ends as its own `Poll` leaves it, the deliveries are
      the `Poll` outputs in list order, and the others are untouched. */
  function PollAll(conns: map<ConnId, Connection>, ids: seq<ConnId>, pubs: Publications, fetch: Fetch)
    : (r: (map<ConnId, Connection>, seq<Delivery>))
    requires AllValid(conns)
    requires forall i :: 0 <= i < |ids| ==> ids[i] in conns
    ensures AllValid(r.0) && r.0.Keys == conns.Keys
    ensures forall id :: id in conns ==> SameSubscriptions(r.0[id].subs, conns[id].subs)
    ensures forall id :: id in ids ==> r.0[id].cache == BuildSnapshot(conns[id].subs, pubs, fetch)
    ensures forall id :: id in conns && id !in ids ==> r.0[id] == conns[id]
    decreases |ids|
  {
    if |ids| == 0 then (conns, [])
    else
      var id := ids[0];
      var st := Poll(conns[id], pubs, fetch);
      var updated := conns[id := st.conn];
      PollOneFacts(conns, id, pubs, fetch);
      var rest := PollAll(updated, ids[1..], pubs, fetch);
      forall x | x in ids
        ensures rest.0[x].cache == BuildSnapshot(conns[x].subs, pubs, fetch)
      {
        if x in ids[1..] {
          BuildSnapshotIgnoresReady(updated[x].subs, conns[x].subs, pubs, fetch);
        } else {
          assert x == ids[0];
        }
      }
      forall x | x in conns
        ensures SameSubscriptions(rest.0[x].subs, conns[x].subs)
      {
        SameSubscriptionsTransitive(rest.0[x].subs, updated[x].subs, conns[x].subs);
      }
      forall x | x in conns && x !in ids
        ensures rest.0[x] == conns[x]
      {
        assert x != id && x !in ids[1..];
      }
      (rest.0, Addressed(id, st.out) + rest.1)
  }

  /** Polling one connection: it is replaced by its poll's result and the
      others stay as they were. */
  lemma PollOneFacts(conns: map<ConnId, Connection>, id: ConnId, pubs: Publications, fetch: Fetch)
    requires AllValid(conns) && id in conns
    ensures var updated := conns[id := Poll(conns[id], pubs, fetch).conn];
      && AllValid(updated) && updated.Keys == conns.Keys
      && (forall x :: x in conns ==> SameSubscriptions(updated[x].subs, conns[x].subs))
      && updated[id].cache == BuildSnapshot(conns[id].subs, pubs, fetch)
      && (forall x :: x in conns && x != id ==> updated[x] == conns[x])
  {
  }

  /** With distinct ids, every listed connection ends as its own `Poll`
      leaves it, and the deliveries are the `Poll` outputs in list order. */
  lemma PollAllDelivers(conns: map<ConnId, Connection>, ids: seq<ConnId>, pubs: Publications, fetch: Fetch)
    requires AllValid(conns)
    requires forall i :: 0 <= i < |ids| ==> ids[i] in conns
    requires DistinctIds(ids)
    ensures forall id :: id in ids ==> PollAll(conns, ids, pubs, fetch).0[id] == Poll(conns[id], pubs, fetch).conn
    ensures PollAll(conns, ids, pubs, fetch).1 == PollOutputs(conns, ids, pubs, fetch)
  {
    PollAllConnections(conns, ids, pubs, fetch);
    PollAllOutputs(conns, ids, pubs, fetch);
  }

  /** One step of `PollAll`: poll the first socket, then the rest against
      the updated connections. */
  lemma PollAllStep(conns: map<ConnId, Connection>, ids: seq<ConnId>, pubs: Publications, fetch: Fetch)
    requires AllValid(conns)
    requires forall i :: 0 <= i < |ids| ==> ids[i] in conns
    requires |ids| > 0
    ensures var st := Poll(conns[ids[0]], pubs, fetch);
      AllValid(conns[ids[0] := st.conn]) &&
      PollAll(conns, ids, pubs, fetch) ==
        (PollAll(conns[ids[0] := st.conn], ids[1..], pubs, fetch).0,
         Addressed(ids[0], st.out) + PollAll(conns[ids[0] := st.conn], ids[1..], pubs, fetch).1)
  {
    PollOneFacts(conns, ids[0], pubs, fetch);
  }

  lemma {:induction false} PollAllConnections(conns: map<ConnId, Connection>, ids: seq<ConnId>, pubs: Publications, fetch: Fetch)
    requires AllValid(conns)
    requires forall i :: 0 <= i < |ids| ==> ids[i] in conns
    requires DistinctIds(ids)
    ensures forall id :: id in ids ==> PollAll(conns, ids, pubs, fetch).0[id] == Poll(conns[id], pubs, fetch).conn
    decreases |ids|
  {
    if |ids| > 0 {
      var id := ids[0];
      var st := Poll(conns[id], pubs, fetch);
      var updated := conns[id := st.conn];
      var tail := ids[1..];
      DistinctTail(ids);
      PollAllConnections(updated, tail, pubs, fetch);
      var rest := PollAll(updated, tail, pubs, fetch);
      PollAllStep(conns, ids, pubs, fetch);
      assert rest.0[id] == st.conn;
      forall x | x in tail
        ensures rest.0[x] == Poll(conns[x], pubs, fetch).conn
      {
        assert updated[x] == conns[x];
      }
      assert forall x :: x in ids <==> x == id || x in tail;
    }
  }

  lemma {:induction false} PollAllOutputs(conns: map<ConnId, Connection>, ids: seq<ConnId>, pubs: Publications, fetch: Fetch)
    requires AllValid(conns)
    requires forall i :: 0 <= i < |ids| ==> ids[i] in conns
    requires DistinctIds(ids)
    ensures PollAll(conns, ids, pubs, fetch).1 == PollOutputs(conns, ids, pubs, fetch)
    decreases |ids|
  {
    if |ids| > 0 {
      var id := ids[0];
      var st := Poll(conns[id], pubs, fetch);
      var updated := conns[id := st.conn];
      var tail := ids[1..];
      DistinctTail(ids);
      PollAllOutputs(updated, tail, pubs, fetch);
      PollOutputsSkips(conns, id, st.conn, tail, pubs, fetch);
      PollAllStep(conns, ids, pubs, fetch);
    }
  }

  /** The whole server: registries, live connections, and the sockets in the
      order `all_sockets()` lists them. */
  datatype ServerState = ServerState(
    pubs: Publications,
    colls: Collections,
    conns: map<ConnId, Connection>,
    sockets: seq<ConnId>)

  ghost predicate ServerValid(s: ServerState)
  {
    && AllValid(s.conns)
    && (forall i :: 0 <= i < |s.sockets| ==> s.sockets[i] in s.conns)
    && DistinctIds(s.sockets)
  }

  /** The stream's register callback: a new socket starts with no
      subscriptions and an empty cache. */
  function Accept(s: ServerState, id: ConnId): (r: ServerState)
    requires ServerValid(s) && id !in s.conns
    ensures ServerValid(r)
    ensures r.conns == s.conns[id := Connect()] && r.sockets == s.sockets + [id]
    ensures r.pubs == s.pubs && r.colls == s.colls
  {
    ServerState(s.pubs, s.colls, s.conns[id := Connect()], s.sockets + [id])
  }

  /** A 'livedata' event on socket `id`, handled by the corrected dispatcher
      `Receive`: only that socket's connection changes, and everything
      emitted goes to it. */
  function OnLivedata(s: ServerState, id: ConnId, msg: Value, fetch: Fetch): (r: (ServerState, seq<Delivery>))
    requires ServerValid(s) && id in s.conns
    ensures ServerValid(r.0) && r.0.conns.Keys == s.conns.Keys
    ensures r.0.pubs == s.pubs && r.0.colls == s.colls && r.0.sockets == s.sockets
    ensures forall x :: x in s.conns && x != id ==> r.0.conns[x] == s.conns[x]
    ensures r.0.conns[id] == Receive(s.conns[id], msg, s.pubs, fetch).conn
    ensures |r.1| == |Receive(s.conns[id], msg, s.pubs, fetch).out|
    ensures forall i :: 0 <= i < |r.1| ==> r.1[i] == Delivery(id, Receive(s.conns[id], msg, s.pubs, fetch).out[i])
  {
    var st := Receive(s.conns[id], msg, s.pubs, fetch);
    (s.(conns := s.conns[id := st.conn]), Addressed(id, st.out))
  }

  /** A 'handle' event from socket `sender` carrying `payload`: on success
      every socket is re-polled against `fetch`, the data source after the
      mutation, including the sender itself; on failure, which a payload
      other than an object always is, nothing is polled. */
  function OnHandle(s: ServerState, sender: ConnId, payload: Option<Value>, freshId: string, completes: Action -> bool, fetch: Fetch)
    : (r: Result<(ServerState, Action, seq<Delivery>), HandlerError>)
    requires ServerValid(s) && sender in s.conns
    ensures !(payload.Some? && payload.value.VObj?) ==> r.Failure?
    ensures r.Failure? <==> HandlePayload(s.colls, payload, freshId, s.sockets, completes).Failure?
    ensures r.Failure? ==> r.error == HandlePayload(s.colls, payload, freshId, s.sockets, completes).error
    ensures r.Success? ==> r.value.1 == HandlePayload(s.colls, payload, freshId, s.sockets, completes).value.action
    ensures r.Success? ==> ServerValid(r.value.0) && r.value.0.sockets == s.sockets
    ensures r.Success? ==> r.value.0.pubs == s.pubs && r.value.0.colls == s.colls
    ensures r.Success? ==> r.value.0.conns.Keys == s.conns.Keys
    ensures r.Success? ==> forall x :: x in s.conns && x !in s.sockets ==> r.value.0.conns[x] == s.conns[x]
    ensures r.Success? ==> forall id :: id in s.sockets ==>
      r.value.0.conns[id] == Poll(s.conns[id], s.pubs, fetch).conn &&
      r.value.0.conns[id].cache == BuildSnapshot(s.conns[id].subs, s.pubs, fetch)
    ensures r.Success? ==> r.value.2 == PollOutputs(s.conns, s.sockets, s.pubs, fetch)
  {
    match HandlePayload(s.colls, payload, freshId, s.sockets, completes)
    case Failure(e) => Failure(e)
    case Success(h) =>
      PollAllDelivers(s.conns, s.sockets, s.pubs, fetch);
      var (conns, out) := PollAll(s.conns, h.polled, s.pubs, fetch);
      Success((s.(conns := conns), h.action, out))
  }
}

=== FILE: snapshot.dfy ===
/** The per-connection cache and how a poll cycle builds a fresh one through
    `channel.send` (livedata_server.js, poll_subscriptions). */
module Snapshot {
  import opened Values
  import opened CacheKeys

  /** A cache: the documents a client is known to hold, under composite keys,
      together with the keys in insertion order (the order in which JavaScript
      iterates an object's non-numeric keys). */
  datatype Cache = Cache(order: seq<string>, docs: map<string, Doc>)

  const EmptyCache: Cache := Cache([], map[])

  ghost predicate Distinct(s: seq<string>)
  {
    forall i, j :: 0 <= i < j < |s| ==> s[i] != s[j]
  }

  /** The order lists every key of the map exactly once. */
  ghost predicate Valid(c: Cache)
  {
    && Distinct(c.order)
    && (forall k :: k in c.docs <==> k in c.order)
  }

  /** The key `collection_name + "|" + o._id` of an admitted document. */
  function DocKey(collection: string, d: Doc): string
    requires HasTruthyId(d)
  {
    MakeKey(collection, Text(d[IdField]))
  }

  /** `_.extend(base, d)`: a shallow copy of `base` overwritten by the fields of `d`. */
  function Extend(base: Doc, d: Doc): (r: Doc)
    ensures r.Keys == base.Keys + d.Keys
    ensures forall f :: f in d ==> r[f] == d[f]
    ensures forall f :: f in base && f !in d ==> r[f] == base[f]
  {
    base + d
  }

  /** Every cached entry carries an `_id` field. */
  ghost predicate EntriesHaveIds(c: Cache)
  {
    forall k :: k in c.docs ==> IdField in c.docs[k]
  }

  /** `new_cache[key] || {}`. */
  function Entry(c: Cache, key: string): Doc
  {
    if key in c.docs then c.docs[key] else map[]
  }

  /** `new_cache[key] = _.extend(new_cache[key] || {}, d)`: a new key is
      appended to the order; an existing entry is shallow-extended. */
  function Put(c: Cache, key: string, d: Doc): (r: Cache)
    requires Valid(c)
    ensures Valid(r)
    ensures r.docs == c.docs[key := Extend(Entry(c, key), d)]
    ensures |c.order| <= |r.order| && r.order[..|c.order|] == c.order
  {
    if key in c.docs then
      Cache(c.order, c.docs[key := Extend(c.docs[key], d)])
    else
      PutNewKeyValid(c, key, d);
      Cache(c.order + [key], c.docs[key := Extend(map[], d)])
  }

  lemma PutNewKeyValid(c: Cache, key: string, d: Doc)
    requires Valid(c) && key !in c.docs
    ensures Valid(Cache(c.order + [key], c.docs[key := Extend(map[], d)]))
    ensures (c.order + [key])[..|c.order|] == c.order
  {
    var order := c.order + [key];
    assert order[..|c.order|] == c.order;
    forall k
      ensures k in order <==> k in c.order || k == key
    {
      if k in order {
        var i :| 0 <= i < |order| && order[i] == k;
        if i < |c.order| {
          assert c.order[i] == k;
        }
      }
    }
  }

  /** Whether `docs[i]`, sent for `collection`, lands under `key`. */
  predicate Contributes(collection: string, docs: seq<Doc>, i: int, key: string)
    requires 0 <= i < |docs|
  {
    HasTruthyId(docs[i]) && DocKey(collection, docs[i]) == key
  }

  /** The keys of the admitted documents among `docs`. */
  ghost function SentKeys(collection: string, docs: seq<Doc>): set<string>
  {
    set i | 0 <= i < |docs| && HasTruthyId(docs[i]) :: DocKey(collection, docs[i])
  }

  lemma SentKeysSnoc(collection: string, docs: seq<Doc>, d: Doc)
    ensures SentKeys(collection, docs + [d]) ==
      SentKeys(collection, docs) + (if HasTruthyId(d) then {DocKey(collection, d)} else {})
  {
    var all := docs + [d];
    forall k | k in SentKeys(collection, all)
      ensures k in SentKeys(collection, docs) || (HasTruthyId(d) && k == DocKey(collection, d))
    {
      var i :| 0 <= i < |all| && HasTruthyId(all[i]) && DocKey(collection, all[i]) == k;
      if i < |docs| {
        assert all[i] == docs[i];
      }
    }
    forall k | k in SentKeys(collection, docs)
      ensures k in SentKeys(collection, all)
    {
      var i :| 0 <= i < |docs| && HasTruthyId(docs[i]) && DocKey(collection, docs[i]) == k;
      assert all[i] == docs[i];
    }
    if HasTruthyId(d) {
      assert all[|docs|] == d;
    }
  }

  /** `channel.send` for one object. */
  function SendOne(c: Cache, collection: string, d: Doc): (r: Cache)
    requires Valid(c)
    ensures Valid(r)
    ensures |c.order| <= |r.order| && r.order[..|c.order|] == c.order
    ensures EntriesHaveIds(c) ==> EntriesHaveIds(r)
  {
    if HasTruthyId(d) then Put(c, DocKey(collection, d), d) else c
  }

  /** `channel.send(collection, docs)` for an array argument: each document
      without a truthy `_id` is dropped, every other one is merged into the
      entry for its key, in array order. */
  function SendAll(c: Cache, collection: string, docs: seq<Doc>): (r: Cache)
    requires Valid(c)
    ensures Valid(r)
    ensures |c.order| <= |r.order| && r.order[..|c.order|] == c.order
    ensures r.docs.Keys == c.docs.Keys + SentKeys(collection, docs)
    ensures EntriesHaveIds(c) ==> EntriesHaveIds(r)
    decreases |docs|
  {
    if |docs| == 0 then c
    else
      var front := docs[..|docs| - 1];
      assert docs == front + [docs[|docs| - 1]];
      SentKeysSnoc(collection, front, docs[|docs| - 1]);
      SendOne(SendAll(c, collection, front), collection, docs[|docs| - 1])
  }

  /** The argument of `channel.send`: a single object or an array of them. */
  datatype Payload = Single(doc: Doc) | Batch(docs: seq<Doc>)

  /** `channel.send(collection, obj)`: a non-array argument is wrapped into a
      one-element array. */
  function Send(c: Cache, collection: string, p: Payload): (r: Cache)
    requires Valid(c)
    ensures Valid(r)
    ensures p.Single? && !HasTruthyId(p.doc) ==> r == c
    ensures p.Single? && HasTruthyId(p.doc) ==> r == Put(c, DocKey(collection, p.doc), p.doc)
    ensures p.Single? ==> r == SendAll(c, collection, [p.doc])
    ensures p.Batch? ==> r == SendAll(c, collection, p.docs)
  {
    match p
    case Single(d) =>
      assert [d][..0] == [];
      assert SendAll(c, collection, [d]) == SendOne(SendAll(c, collection, []), collection, d);
      SendAll(c, collection, [d])
    case Batch(ds) => SendAll(c, collection, ds)
  }

  /** The keys that `docs` adds to a cache already holding `known`, each at
      its first admitted document, scanning the documents from the front. */
  ghost function FirstSent(known: set<string>, collection: string, docs: seq<Doc>): seq<string>
    decreases |docs|
  {
    if |docs| == 0 then []
    else if HasTruthyId(docs[0]) && DocKey(collection, docs[0]) !in known then
      [DocKey(collection, docs[0])] + FirstSent(known + {DocKey(collection, docs[0])}, collection, docs[1..])
    else FirstSent(known, collection, docs[1..])
  }

  lemma SentKeysCons(collection: string, d: Doc, docs: seq<Doc>)
    ensures SentKeys(collection, [d] + docs) ==
      (if HasTruthyId(d) then {DocKey(collection, d)} else {}) + SentKeys(collection, docs)
  {
    var all := [d] + docs;
    forall k | k in SentKeys(collection, all)
      ensures (HasTruthyId(d) && k == DocKey(collection, d)) || k in SentKeys(collection, docs)
    {
      var i :| 0 <= i < |all| && HasTruthyId(all[i]) && DocKey(collection, all[i]) == k;
      if i > 0 {
        assert all[i] == docs[i - 1];
      }
    }
    forall k | k in SentKeys(collection, docs)
      ensures k in SentKeys(collection, all)
    {
      var i :| 0 <= i < |docs| && HasTruthyId(docs[i]) && DocKey(collection, docs[i]) == k;
      assert all[i + 1] == docs[i];
    }
    if HasTruthyId(d) {
      assert all[0] == d;
    }
  }

  /** Appending one document to the batch appends its key to the first-sent
      keys exactly when the key is neither known nor sent before. */
  lemma {:induction false} FirstSentSnoc(known: set<string>, collection: string, docs: seq<Doc>, d: Doc)
    ensures FirstSent(known, collection, docs + [d]) == FirstSent(known, collection, docs) +
      (if HasTruthyId(d) && DocKey(collection, d) !in known + SentKeys(collection, docs)
       then [DocKey(collection, d)] else [])
    decreases |docs|
  {
    if |docs| == 0 {
      assert docs + [d] == [d];
      assert SentKeys(collection, docs) == {};
    } else {
      var all := docs + [d];
      assert all[0] == docs[0] && all[1..] == docs[1..] + [d];
      assert docs == [docs[0]] + docs[1..];
      SentKeysCons(collection, docs[0], docs[1..]);
      if HasTruthyId(docs[0]) && DocKey(collection, docs[0]) !in known {
        FirstSentSnoc(known + {DocKey(collection, docs[0])}, collection, docs[1..], d);
      } else {
        FirstSentSnoc(known, collection, docs[1..], d);
      }
    }
  }

  /** `channel.send` appends the new keys to the cache's key order in the
      order of their first admitted document, after the keys already held. */
  lemma {:induction false} SendAllOrder(c: Cache, collection: string, docs: seq<Doc>)
    requires Valid(c)
    ensures SendAll(c, collection, docs).order == c.order + FirstSent(c.docs.Keys, collection, docs)
    decreases |docs|
  {
    if |docs| > 0 {
      var front := docs[..|docs| - 1];
      var d := docs[|docs| - 1];
      assert docs == front + [d];
      var prev := SendAll(c, collection, front);
      assert SendAll(c, collection, docs) == SendOne(prev, collection, d);
      SendAllOrder(c, collection, front);
      FirstSentSnoc(c.docs.Keys, collection, front, d);
      SendOneOrder(prev, collection, d);
      var added := FirstSent(c.docs.Keys, collection, front);
      var held := c.docs.Keys + SentKeys(collection, front);
      assert prev.docs.Keys == held;
      var last: seq<string> := if HasTruthyId(d) && DocKey(collection, d) !in held then [DocKey(collection, d)] else [];
      assert FirstSent(c.docs.Keys, collection, docs) == added + last;
      assert SendOne(prev, collection, d).order == prev.order + last;
      assert (c.order + added) + last == c.order + (added + last);
    }
  }

  /** Sending one document appends its key to the order exactly when the
      cache did not hold it. */
  lemma SendOneOrder(c: Cache, collection: string, d: Doc)
    requires Valid(c)
    ensures SendOne(c, collection, d).order == c.order +
      (if HasTruthyId(d) && DocKey(collection, d) !in c.docs.Keys then [DocKey(collection, d)] else [])
  {
  }

  /** Some document sent under `key` carries field `f`. */
  ghost predicate Carries(collection: string, docs: seq<Doc>, key: string, f: string)
  {
    exists i :: 0 <= i < |docs| && Contributes(collection, docs, i, key) && f in docs[i]
  }

  lemma CarriesSnoc(collection: string, docs: seq<Doc>, key: string, f: string)
    requires |docs| > 0
    ensures Carries(collection, docs, key, f) <==>
      (Carries(collection, docs[..|docs| - 1], key, f) ||
       (Contributes(collection, docs, |docs| - 1, key) && f in docs[|docs| - 1]))
  {
    var front := docs[..|docs| - 1];
    if Carries(collection, docs, key, f) {
      var i :| 0 <= i < |docs| && Contributes(collection, docs, i, key) && f in docs[i];
      if i < |front| {
        assert front[i] == docs[i];
        assert Contributes(collection, front, i, key);
      }
    }
    if Carries(collection, front, key, f) {
      var i :| 0 <= i < |front| && Contributes(collection, front, i, key) && f in front[i];
      assert front[i] == docs[i];
      assert Contributes(collection, docs, i, key);
    }
  }

  lemma CarriesIsSent(collection: string, docs: seq<Doc>, key: string, f: string)
    ensures Carries(collection, docs, key, f) ==> key in SentKeys(collection, docs)
  {
    if Carries(collection, docs, key, f) {
      var i :| 0 <= i < |docs| && Contributes(collection, docs, i, key) && f in docs[i];
    }
  }

  /** One send step, unfolded. */
  lemma SendAllStep(c: Cache, collection: string, docs: seq<Doc>)
    requires Valid(c) && |docs| > 0
    ensures SendAll(c, collection, docs) ==
      SendOne(SendAll(c, collection, docs[..|docs| - 1]), collection, docs[|docs| - 1])
  {
  }

  /** The fields of a merged entry are the fields of the earlier entry and of
      every document sent under that key. */
  lemma {:induction false} SendAllFields(c: Cache, collection: string, docs: seq<Doc>, key: string, f: string)
    requires Valid(c)
    ensures key in SendAll(c, collection, docs).docs ==>
      (f in SendAll(c, collection, docs).docs[key] <==>
        ((key in c.docs && f in c.docs[key]) || Carries(collection, docs, key, f)))
    decreases |docs|
  {
    if |docs| > 0 {
      var front := docs[..|docs| - 1];
      var d := docs[|docs| - 1];
      var prev := SendAll(c, collection, front);
      SendAllStep(c, collection, docs);
      CarriesSnoc(collection, docs, key, f);
      var hit := Contributes(collection, docs, |docs| - 1, key);
      if key in prev.docs {
        SendAllFields(c, collection, front, key, f);
      } else {
        assert key !in c.docs;
        CarriesIsSent(collection, front, key, f);
      }
      if hit {
        assert SendAll(c, collection, docs) == Put(prev, key, d);
      } else if HasTruthyId(d) {
        assert SendAll(c, collection, docs) == Put(prev, DocKey(collection, d), d);
      } else {
        assert SendAll(c, collection, docs) == prev;
      }
    }
  }

  /** Later documents win: a field takes its value from the last document
      sent under its key that carries the field. */
  lemma {:induction false} SendAllLaterWins(c: Cache, collection: string, docs: seq<Doc>, i: int, key: string, f: string)
    requires Valid(c)
    requires 0 <= i < |docs| && Contributes(collection, docs, i, key) && f in docs[i]
    requires forall j :: i < j < |docs| && Contributes(collection, docs, j, key) ==> f !in docs[j]
    ensures key in SendAll(c, collection, docs).docs
    ensures f in SendAll(c, collection, docs).docs[key]
    ensures SendAll(c, collection, docs).docs[key][f] == docs[i][f]
    decreases |docs|
  {
    var front := docs[..|docs| - 1];
    var d := docs[|docs| - 1];
    var prev := SendAll(c, collection, front);
    SendAllStep(c, collection, docs);
    if i == |docs| - 1 {
      SendOneSets(prev, collection, d, key, f);
    } else {
      assert front[i] == docs[i];
      assert Contributes(collection, front, i, key);
      forall j | i < j < |front| && Contributes(collection, front, j, key)
        ensures f !in front[j]
      {
        assert front[j] == docs[j];
        assert Contributes(collection, docs, j, key);
      }
      SendAllLaterWins(c, collection, front, i, key, f);
      assert !(HasTruthyId(d) && DocKey(collection, d) == key && f in d);
      SendOneKeeps(prev, collection, d, key, f);
    }
  }

  /** Sending a document under `key` that carries `f` sets that field. */
  lemma SendOneSets(c: Cache, collection: string, d: Doc, key: string, f: string)
    requires Valid(c) && HasTruthyId(d) && DocKey(collection, d) == key && f in d
    ensures key in SendOne(c, collection, d).docs && f in SendOne(c, collection, d).docs[key]
    ensures SendOne(c, collection, d).docs[key][f] == d[f]
  {
  }

  /** Earlier fields survive: a field no document under its key carries keeps
      the value it had before the send. */
  lemma {:induction false} SendAllEarlierSurvives(c: Cache, collection: string, docs: seq<Doc>, key: string, f: string)
    requires Valid(c)
    requires key in c.docs && f in c.docs[key]
    requires !Carries(collection, docs, key, f)
    ensures key in SendAll(c, collection, docs).docs
    ensures f in SendAll(c, collection, docs).docs[key]
    ensures SendAll(c, collection, docs).docs[key][f] == c.docs[key][f]
    decreases |docs|
  {
    if |docs| > 0 {
      var front := docs[..|docs| - 1];
      var d := docs[|docs| - 1];
      var prev := SendAll(c, collection, front);
      SendAllStep(c, collection, docs);
      CarriesSnoc(collection, docs, key, f);
      SendAllEarlierSurvives(c, collection, front, key, f);
      assert !(HasTruthyId(d) && DocKey(collection, d) == key && f in d);
      SendOneKeeps(prev, collection, d, key, f);
    }
  }

  /** Sending a document that does not carry `f` under `key` keeps that field. */
  lemma SendOneKeeps(c: Cache, collection: string, d: Doc, key: string, f: string)
    requires Valid(c) && key in c.docs && f in c.docs[key]
    requires !(HasTruthyId(d) && DocKey(collection, d) == key && f in d)
    ensures key in SendOne(c, collection, d).docs && f in SendOne(c, collection, d).docs[key]
    ensures SendOne(c, collection, d).docs[key][f] == c.docs[key][f]
  {
  }

  /** Objects without a truthy `_id` leave no trace: sending them is the same
      as not sending them. */
  lemma {:induction false} SendAllDropsUnadmitted(c: Cache, collection: string, docs: seq<Doc>, d: Doc)
    requires Valid(c)
    requires !HasTruthyId(d)
    ensures SendAll(c, collection, docs + [d]) == SendAll(c, collection, docs)
  {
    assert (docs + [d])[..|docs|] == docs;
  }
}

=== FILE: strings.dfy ===
/** Character-separated strings: the semantics of JavaScript's
    `String.prototype.split` and `Array.prototype.join` with a one-character
    separator, together with the laws relating them. */
module Strings {

  /** Number of occurrences of `c` in `s`. */
  function Occurrences(s: string, c: char): (n: nat)
    ensures n <= |s|
    ensures n == 0 <==> c !in s
  {
    if |s| == 0 then 0
    else (if s[0] == c then 1 else 0) + Occurrences(s[1..], c)
  }

  /** Index of the first occurrence of `c` in `s`. */
  function FirstIndex(s: string, c: char): (i: nat)
    requires c in s
    ensures i < |s| && s[i] == c
    ensures c !in s[..i]
  {
    if s[0] == c then 0
    else
      assert c in s[1..] by {
        var j :| 0 <= j < |s| && s[j] == c;
        assert s[1..][j - 1] == c;
      }
      var k := FirstIndex(s[1..], c);
      assert s[..k + 1] == [s[0]] + s[1..][..k];
      k + 1
  }

  /** `s.split(c)`: the maximal separator-free pieces between occurrences of `c`.
      Never empty: `"".split(c)` is `[""]`. */
  function SplitOn(s: string, c: char): (parts: seq<string>)
    ensures |parts| >= 1
    ensures forall i :: 0 <= i < |parts| ==> c !in parts[i]
    decreases |s|
  {
    if c !in s then [s]
    else
      var i := FirstIndex(s, c);
      [s[..i]] + SplitOn(s[i + 1..], c)
  }

  /** `parts.join(c)`. */
  function JoinWith(parts: seq<string>, c: char): string
  {
    if |parts| == 0 then ""
    else if |parts| == 1 then parts[0]
    else parts[0] + [c] + JoinWith(parts[1..], c)
  }

  lemma OccurrencesAppend(a: string, b: string, c: char)
    ensures Occurrences(a + b, c) == Occurrences(a, c) + Occurrences(b, c)
  {
    if |a| == 0 {
      assert a + b == b;
    } else {
      assert (a + b)[1..] == a[1..] + b;
      OccurrencesAppend(a[1..], b, c);
    }
  }

  /** Splitting yields one more piece than there are separators. */
  lemma {:induction false} SplitOnCount(s: string, c: char)
    ensures |SplitOn(s, c)| == Occurrences(s, c) + 1
    decreases |s|
  {
    if c in s {
      var i := FirstIndex(s, c);
      assert s == s[..i] + [c] + s[i + 1..];
      OccurrencesAppend(s[..i] + [c], s[i + 1..], c);
      OccurrencesAppend(s[..i], [c], c);
      SplitOnCount(s[i + 1..], c);
    }
  }

  /** Joining the pieces of a split restores the string. */
  lemma {:induction false} JoinSplitOn(s: string, c: char)
    ensures JoinWith(SplitOn(s, c), c) == s
    decreases |s|
  {
    if c in s {
      var i := FirstIndex(s, c);
      var rest := SplitOn(s[i + 1..], c);
      SplitOnFirst(s, c);
      JoinSplitOn(s[i + 1..], c);
      JoinWithCons(s[..i], rest, c);
      Around(s, i);
    }
  }

  /** One step of the split: the piece before the first separator, then the
      split of what follows it. */
  lemma SplitOnFirst(s: string, c: char)
    requires c in s
    ensures SplitOn(s, c) == [s[..FirstIndex(s, c)]] + SplitOn(s[FirstIndex(s, c) + 1..], c)
  {
  }

  /** A string is its prefix, the character at `i` and its suffix. */
  lemma Around(s: string, i: nat)
    requires i < |s|
    ensures s == s[..i] + [s[i]] + s[i + 1..]
  {
  }

  /** Joining a leading piece onto at least one more puts a separator after it. */
  lemma JoinWithCons(p: string, rest: seq<string>, c: char)
    requires |rest| >= 1
    ensures JoinWith([p] + rest, c) == p + [c] + JoinWith(rest, c)
  {
    assert ([p] + rest)[1..] == rest;
  }

  /** Splitting two separator-free pieces joined by the separator gives them back. */
  lemma SplitOnJoinPair(a: string, b: string, c: char)
    requires c !in a && c !in b
    ensures SplitOn(a + [c] + b, c) == [a, b]
  {
    var s := a + [c] + b;
    assert s[|a|] == c;
    var i := FirstIndex(s, c);
    assert i == |a| by {
      assert forall j :: 0 <= j < |a| ==> s[j] == a[j];
      assert forall j :: 0 <= j < i ==> s[j] == s[..i][j];
    }
    assert s[..i] == a;
    assert s[i + 1..] == b;
  }
}

=== FILE: sync.dfy ===
/** One connection's state and the operations on it: the poll cycle
    (`poll_subscriptions`), subscribing, unsubscribing and the 'livedata'
    message dispatcher. Each operation runs as one atomic step and returns the
    new state with the emissions it put on the socket, in order. */
module Sync {
  import opened Wrappers
  import opened Values
  import opened CacheKeys
  import opened Protocol
  import opened Snapshot
  import opened Diff
  import opened Registry
  import DiffLaws
  import DiffCoverage

  /** An entry of `socket.meteor.subs`. */
  datatype Subscription = Subscription(id: Option<Value>, name: string, params: Option<Value>, ready: bool)

  /** `socket.meteor`: the subscription list and the last cache sent. */
  datatype Connection = Connection(subs: seq<Subscription>, cache: Cache)

  /** The state after an operation and what it emitted. */
  datatype Step = Step(conn: Connection, out: seq<Emission>)

  /** The data source: the documents a query returns from a collection. */
  type Fetch = (string, Query) -> seq<Doc>

  /** A new connection has no subscriptions and an empty cache. */
  function Connect(): (c: Connection)
    ensures c.subs == [] && c.cache.docs == map[] && Valid(c.cache)
  {
    Connection([], EmptyCache)
  }

  /** Two subscription lists that differ at most in their ready flags. */
  ghost predicate SameSubscriptions(a: seq<Subscription>, b: seq<Subscription>)
  {
    |a| == |b| &&
    forall i :: 0 <= i < |a| ==> a[i].id == b[i].id && a[i].name == b[i].name && a[i].params == b[i].params
  }

  /** One subscription's contribution to the cache being built: an unknown
      publication is skipped; a known one sends, as one array, what its
      query fetches. */
  function RunSubscription(c: Cache, sub: Subscription, pubs: Publications, fetch: Fetch): (r: Cache)
    requires Valid(c)
    ensures Valid(r)
    ensures EntriesHaveIds(c) ==> EntriesHaveIds(r)
  {
    if sub.name !in pubs then c
    else
      var p := pubs[sub.name];
      Send(c, p.collection, Batch(fetch(p.collection, ResolveQuery(p.options, sub.params))))
  }

  /** The fresh cache of a poll cycle: every subscription run in list order
      into an initially empty cache. */
  function BuildSnapshot(subs: seq<Subscription>, pubs: Publications, fetch: Fetch): (r: Cache)
    ensures Valid(r)
    ensures EntriesHaveIds(r)
    decreases |subs|
  {
    if |subs| == 0 then EmptyCache
    else RunSubscription(BuildSnapshot(subs[..|subs| - 1], pubs, fetch), subs[|subs| - 1], pubs, fetch)
  }

  /** The fresh cache depends only on the subscriptions' names and params,
      never on their ready flags. */
  lemma {:induction false} BuildSnapshotIgnoresReady(a: seq<Subscription>, b: seq<Subscription>, pubs: Publications, fetch: Fetch)
    requires SameSubscriptions(a, b)
    ensures BuildSnapshot(a, pubs, fetch) == BuildSnapshot(b, pubs, fetch)
    decreases |a|
  {
    if |a| > 0 {
      var n := |a| - 1;
      assert SameSubscriptions(a[..n], b[..n]);
      BuildSnapshotIgnoresReady(a[..n], b[..n], pubs, fetch);
    }
  }

  /** The number of subscriptions not yet ready. */
  function PendingCount(subs: seq<Subscription>): nat
  {
    if |subs| == 0 then 0 else (if subs[0].ready then 0 else 1) + PendingCount(subs[1..])
  }

  /** The ready messages of the readiness pass, in list order. */
  function Announcements(subs: seq<Subscription>): seq<Emission>
  {
    if |subs| == 0 then []
    else (if subs[0].ready then [] else [Ready(subs[0].id)]) + Announcements(subs[1..])
  }

  /** The readiness pass: each subscription not yet ready is announced once
      and marked ready; a ready one emits nothing. */
  function ReadyPass(subs: seq<Subscription>): (r: (seq<Subscription>, seq<Emission>))
    ensures |r.0| == |subs|
    ensures forall i :: 0 <= i < |subs| ==> r.0[i] == subs[i].(ready := true)
    ensures |r.1| == PendingCount(subs)
    ensures forall m :: m in r.1 ==> m.Ready?
    ensures forall i :: 0 <= i < |subs| && !subs[i].ready ==> Ready(subs[i].id) in r.1
    ensures forall m :: m in r.1 ==> exists i :: 0 <= i < |subs| && !subs[i].ready && m == Ready(subs[i].id)
  {
    AnnouncementsFacts(subs);
    (seq(|subs|, i requires 0 <= i < |subs| => subs[i].(ready := true)), Announcements(subs))
  }

  lemma {:induction false} AnnouncementsFacts(subs: seq<Subscription>)
    ensures |Announcements(subs)| == PendingCount(subs)
    ensures forall i :: 0 <= i < |subs| && !subs[i].ready ==> Ready(subs[i].id) in Announcements(subs)
    ensures forall m :: m in Announcements(subs) ==> exists i :: 0 <= i < |subs| && !subs[i].ready && m == Ready(subs[i].id)
    decreases |subs|
  {
    if |subs| > 0 {
      var rest := Announcements(subs[1..]);
      var lead := if subs[0].ready then [] else [Ready(subs[0].id)];
      AnnouncementsFacts(subs[1..]);
      assert Announcements(subs) == lead + rest;
      assert forall i :: 1 <= i < |subs| ==> subs[1..][i - 1] == subs[i];
      forall m | m in Announcements(subs)
        ensures exists i :: 0 <= i < |subs| && !subs[i].ready && m == Ready(subs[i].id)
      {
        if m !in lead {
          var j :| 0 <= j < |subs| - 1 && !subs[1..][j].ready && m == Ready(subs[1..][j].id);
          assert subs[j + 1] == subs[1..][j];
        }
      }
    }
  }

  /** The ready messages follow the list order, one per pending entry even
      when ids repeat: pending entry `i` is announced at the position given
      by the number of pending entries before it. */
  lemma ReadyPassOrder(subs: seq<Subscription>)
    ensures forall i :: 0 <= i < |subs| && !subs[i].ready ==>
      PendingCount(subs[..i]) < |ReadyPass(subs).1| &&
      ReadyPass(subs).1[PendingCount(subs[..i])] == Ready(subs[i].id)
  {
    forall i | 0 <= i < |subs| && !subs[i].ready
      ensures PendingCount(subs[..i]) < |ReadyPass(subs).1|
      ensures ReadyPass(subs).1[PendingCount(subs[..i])] == Ready(subs[i].id)
    {
      ReadyPassAt(subs, i);
    }
  }

  /** One pending entry's announcement, by induction on its index. */
  lemma {:induction false} ReadyPassAt(subs: seq<Subscription>, i: int)
    requires 0 <= i < |subs| && !subs[i].ready
    ensures PendingCount(subs[..i]) < |Announcements(subs)|
    ensures Announcements(subs)[PendingCount(subs[..i])] == Ready(subs[i].id)
    decreases i
  {
    var tail := Announcements(subs[1..]);
    var lead := if subs[0].ready then [] else [Ready(subs[0].id)];
    var msgs := Announcements(subs);
    assert msgs == lead + tail;
    if i == 0 {
      assert subs[..0] == [];
    } else {
      assert subs[1..][i - 1] == subs[i];
      ReadyPassAt(subs[1..], i - 1);
      PendingCountPrefix(subs, i);
      var k := PendingCount(subs[1..][..i - 1]);
      AppendIndex(lead, tail);
      assert msgs[|lead| + k] == tail[k];
    }
  }

  /** The pending count of a non-empty prefix, split at its head. */
  lemma PendingCountPrefix(subs: seq<Subscription>, i: int)
    requires 0 < i <= |subs|
    ensures PendingCount(subs[..i]) == (if subs[0].ready then 0 else 1) + PendingCount(subs[1..][..i - 1])
  {
    assert subs[..i][0] == subs[0] && subs[..i][1..] == subs[1..][..i - 1];
  }

  lemma AppendIndex(a: seq<Emission>, b: seq<Emission>)
    ensures (a + b)[..|a|] == a
    ensures forall i :: |a| <= i < |a + b| ==> (a + b)[i] == b[i - |a|]
  {
  }

  /** Data messages followed by a readiness pass: the data come first, and
      pending entry `j` is announced at the data's length plus the number of
      pending entries before it. */
  lemma ReadyAfterData(data: seq<Emission>, subs: seq<Subscription>)
    requires forall i :: 0 <= i < |data| ==> data[i].Data?
    ensures var out := data + ReadyPass(subs).1;
      && |out| == |data| + PendingCount(subs)
      && out[..|data|] == data
      && (forall i :: |data| <= i < |out| ==> out[i].Ready?)
      && (forall i :: 0 <= i < |out| && out[i].Ready? ==>
            exists j :: 0 <= j < |subs| && !subs[j].ready && out[i] == Ready(subs[j].id))
      && (forall j :: 0 <= j < |subs| && !subs[j].ready ==>
            |data| + PendingCount(subs[..j]) < |out| && out[|data| + PendingCount(subs[..j])] == Ready(subs[j].id))
  {
    var ready := ReadyPass(subs).1;
    var out := data + ready;
    AppendIndex(data, ready);
    forall i | 0 <= i < |out| && out[i].Ready?
      ensures exists j :: 0 <= j < |subs| && !subs[j].ready && out[i] == Ready(subs[j].id)
    {
      assert i >= |data| && out[i] in ready;
    }
    ReadyPassOrder(subs);
    forall j | 0 <= j < |subs| && !subs[j].ready
      ensures |data| + PendingCount(subs[..j]) < |out|
      ensures out[|data| + PendingCount(subs[..j])] == Ready(subs[j].id)
    {
      assert ready[PendingCount(subs[..j])] == Ready(subs[j].id);
    }
  }

  /** `poll_subscriptions`: build the fresh cache, emit the data messages for
      the difference, promote the fresh cache, then announce readiness. All
      data messages precede the ready messages; the subscription list keeps
      its entries, each now ready. */
  function Poll(conn: Connection, pubs: Publications, fetch: Fetch): (r: Step)
    requires Valid(conn.cache)
    ensures Valid(r.conn.cache)
    ensures r.conn.cache == BuildSnapshot(conn.subs, pubs, fetch)
    ensures SameSubscriptions(r.conn.subs, conn.subs)
    ensures forall i :: 0 <= i < |r.conn.subs| ==> r.conn.subs[i].ready
    ensures |r.out| == |DataMessages(conn.cache, r.conn.cache)| + PendingCount(conn.subs)
    ensures r.out[..|DataMessages(conn.cache, r.conn.cache)|] == DataMessages(conn.cache, r.conn.cache)
    ensures forall i :: |DataMessages(conn.cache, r.conn.cache)| <= i < |r.out| ==> r.out[i].Ready?
    ensures forall i :: 0 <= i < |r.out| && r.out[i].Ready? ==>
      exists j :: 0 <= j < |conn.subs| && !conn.subs[j].ready && r.out[i] == Ready(conn.subs[j].id)
    ensures forall j :: 0 <= j < |conn.subs| && !conn.subs[j].ready ==>
      |DataMessages(conn.cache, r.conn.cache)| + PendingCount(conn.subs[..j]) < |r.out| &&
      r.out[|DataMessages(conn.cache, r.conn.cache)| + PendingCount(conn.subs[..j])] == Ready(conn.subs[j].id)
  {
    var next := BuildSnapshot(conn.subs, pubs, fetch);
    var data := DataMessages(conn.cache, next);
    var (subs, ready) := ReadyPass(conn.subs);
    var out := data + ready;
    ReadyAfterData(data, conn.subs);
    Step(Connection(subs, next), out)
  }

  /** A client that applies a poll's emissions to the documents it held
      ends with the new cache at every well-formed key: exactly where the
      key was already held, up to `_id` where it was added or removed. */
  lemma PollSyncsClient(conn: Connection, pubs: Publications, fetch: Fetch)
    requires Valid(conn.cache)
    ensures var r := Poll(conn, pubs, fetch);
      && (forall k :: WellFormed(k) && k in conn.cache.docs && k in r.conn.cache.docs ==>
            DiffLaws.Lookup(DiffLaws.ApplyAll(conn.cache.docs, r.out), k) == r.conn.cache.docs[k])
      && (forall k :: WellFormed(k) ==>
            DiffLaws.Lookup(DiffLaws.ApplyAll(conn.cache.docs, r.out), k) - {IdField} ==
            DiffLaws.Lookup(r.conn.cache.docs, k) - {IdField})
  {
    var r := Poll(conn, pubs, fetch);
    var data := DataMessages(conn.cache, r.conn.cache);
    var tail := r.out[|data|..];
    assert r.out == data + tail;
    DiffLaws.ApplyAllAppend(conn.cache.docs, data, tail);
    DiffLaws.ApplyAllSkipsOthers(DiffLaws.ApplyAll(conn.cache.docs, data), tail);
    DiffLaws.DiffRoundTrip(conn.cache, r.conn.cache);
  }

  /** A poll never unsets `_id` on a client: every cache the server builds
      holds `_id` in each entry, and so does one it starts from. */
  lemma PollNeverUnsetsId(conn: Connection, pubs: Publications, fetch: Fetch)
    requires Valid(conn.cache) && EntriesHaveIds(conn.cache)
    ensures EntriesHaveIds(Poll(conn, pubs, fetch).conn.cache)
    ensures forall m :: m in Poll(conn, pubs, fetch).out && m.Data? && m.toUnset.Some? ==> IdField !in m.toUnset.value
  {
    var r := Poll(conn, pubs, fetch);
    var data := DataMessages(conn.cache, r.conn.cache);
    DiffCoverage.IdFieldInMessages(conn.cache, r.conn.cache);
    forall m | m in r.out && m.Data?
      ensures m in data
    {
      var i :| 0 <= i < |r.out| && r.out[i] == m;
      assert i < |data| && r.out[i] == data[i];
    }
  }

  /** Every subscription pending before a poll is announced by it. */
  lemma PollAnnouncesPending(conn: Connection, pubs: Publications, fetch: Fetch)
    requires Valid(conn.cache)
    ensures forall j :: 0 <= j < |conn.subs| && !conn.subs[j].ready ==> Ready(conn.subs[j].id) in Poll(conn, pubs, fetch).out
  {
    var r := Poll(conn, pubs, fetch);
    var ready := ReadyPass(conn.subs).1;
    assert r.out == DataMessages(conn.cache, r.conn.cache) + ready;
    assert forall m :: m in ready ==> m in r.out;
  }

  /** The append performed by `livedata_sub` for a known publication. */
  function Added(subs: seq<Subscription>, id: Option<Value>, name: string, params: Option<Value>): seq<Subscription>
  {
    subs + [Subscription(id, name, params, false)]
  }

  /** `livedata_sub`: an unregistered name is answered with `nosub` carrying
      error 17 and changes nothing; otherwise a not-ready subscription is
      appended at the end and the connection is polled, which announces it. */
  function Subscribe(conn: Connection, id: Option<Value>, name: string, params: Option<Value>,
                     pubs: Publications, fetch: Fetch): (r: Step)
    requires Valid(conn.cache)
    ensures Valid(r.conn.cache)
    ensures name !in pubs ==> r.conn == conn && r.out == [NoSub(id, Some(UnknownName))]
    ensures name in pubs ==>
      && SameSubscriptions(r.conn.subs, conn.subs + [Subscription(id, name, params, false)])
      && r.conn.subs[|conn.subs|].ready
      && Ready(id) in r.out
      && r.conn.cache == BuildSnapshot(conn.subs + [Subscription(id, name, params, false)], pubs, fetch)
    ensures name in pubs ==> r == Poll(Connection(Added(conn.subs, id, name, params), conn.cache), pubs, fetch)
  {
    if name !in pubs then Step(conn, [NoSub(id, Some(UnknownName))])
    else
      var subs := Added(conn.subs, id, name, params);
      assert !subs[|conn.subs|].ready;
      Poll(Connection(subs, conn.cache), pubs, fetch)
  }

  /** Subscribing to a known name sends the documents the grown list now
      produces, then marks every subscription ready and announces each one
      that was pending, the earlier ones included. */
  lemma SubscribeSendsData(conn: Connection, id: Option<Value>, name: string, params: Option<Value>,
                           pubs: Publications, fetch: Fetch)
    requires Valid(conn.cache) && name in pubs
    ensures var r := Subscribe(conn, id, name, params, pubs, fetch);
      && r.out[..|DataMessages(conn.cache, r.conn.cache)|] == DataMessages(conn.cache, r.conn.cache)
      && (forall i :: 0 <= i < |r.conn.subs| ==> r.conn.subs[i].ready)
      && (forall j :: 0 <= j < |conn.subs| && !conn.subs[j].ready ==> Ready(conn.subs[j].id) in r.out)
  {
    var subs := Added(conn.subs, id, name, params);
    PollAnnouncesPending(Connection(subs, conn.cache), pubs, fetch);
    assert forall j :: 0 <= j < |conn.subs| ==> subs[j] == conn.subs[j];
  }

  /** The filter of `livedata_unsub`: keeps, in order, every subscription
      whose id is not `===` to `id`. */
  function Without(subs: seq<Subscription>, id: Option<Value>): (r: seq<Subscription>)
    ensures |r| <= |subs|
    ensures forall s :: s in r <==> s in subs && !StrictEquals(s.id, id)
  {
    if |subs| == 0 then []
    else
      var rest := Without(subs[1..], id);
      assert forall s :: s in subs <==> s == subs[0] || s in subs[1..];
      if StrictEquals(subs[0].id, id) then rest else [subs[0]] + rest
  }

  /** The filter keeps the relative order: it distributes over concatenation. */
  lemma {:induction false} WithoutAppend(a: seq<Subscription>, b: seq<Subscription>, id: Option<Value>)
    ensures Without(a + b, id) == Without(a, id) + Without(b, id)
    decreases |a|
  {
    if |a| == 0 {
      assert a + b == b;
    } else {
      assert (a + b)[1..] == a[1..] + b;
      WithoutAppend(a[1..], b, id);
    }
  }

  /** Removing twice removes nothing more. */
  lemma {:induction false} WithoutIdempotent(subs: seq<Subscription>, id: Option<Value>)
    ensures Without(Without(subs, id), id) == Without(subs, id)
    decreases |subs|
  {
    if |subs| > 0 {
      WithoutIdempotent(subs[1..], id);
    }
  }

  /** An object or array id is never `===` to a stored id, so it removes nothing. */
  lemma {:induction false} WithoutObjectIdKeepsAll(subs: seq<Subscription>, id: Option<Value>)
    requires id.Some? && (id.value.VObj? || id.value.VList?)
    ensures Without(subs, id) == subs
    decreases |subs|
  {
    if |subs| > 0 {
      WithoutObjectIdKeepsAll(subs[1..], id);
    }
  }

  lemma SameSubscriptionsCons(x: Subscription, y: Subscription, a: seq<Subscription>, b: seq<Subscription>)
    requires x.id == y.id && x.name == y.name && x.params == y.params
    requires SameSubscriptions(a, b)
    ensures SameSubscriptions([x] + a, [y] + b)
  {
    forall i | 1 <= i < |a| + 1
      ensures ([x] + a)[i] == a[i - 1] && ([y] + b)[i] == b[i - 1]
    {
    }
  }

  lemma SameSubscriptionsTail(a: seq<Subscription>, b: seq<Subscription>)
    requires SameSubscriptions(a, b) && |a| > 0
    ensures SameSubscriptions(a[1..], b[1..])
  {
    forall i | 0 <= i < |a| - 1
      ensures a[1..][i] == a[i + 1] && b[1..][i] == b[i + 1]
    {
    }
  }

  /** The filter ignores ready flags. */
  lemma {:induction false} WithoutSame(a: seq<Subscription>, b: seq<Subscription>, id: Option<Value>)
    requires SameSubscriptions(a, b)
    ensures SameSubscriptions(Without(a, id), Without(b, id))
    decreases |a|
  {
    if |a| > 0 {
      SameSubscriptionsTail(a, b);
      WithoutSame(a[1..], b[1..], id);
      var ra := Without(a[1..], id);
      var rb := Without(b[1..], id);
      if StrictEquals(a[0].id, id) {
        assert Without(a, id) == ra && Without(b, id) == rb;
      } else {
        assert Without(a, id) == [a[0]] + ra && Without(b, id) == [b[0]] + rb;
        SameSubscriptionsCons(a[0], b[0], ra, rb);
      }
    }
  }

  /** An id no subscription carries removes nothing. */
  lemma {:induction false} WithoutNoMatch(subs: seq<Subscription>, id: Option<Value>)
    requires forall s :: s in subs ==> !StrictEquals(s.id, id)
    ensures Without(subs, id) == subs
    decreases |subs|
  {
    if |subs| > 0 {
      assert subs[0] in subs;
      assert forall s :: s in subs[1..] ==> s in subs;
      WithoutNoMatch(subs[1..], id);
    }
  }

  lemma SameSubscriptionsTransitive(a: seq<Subscription>, b: seq<Subscription>, c: seq<Subscription>)
    requires SameSubscriptions(a, b) && SameSubscriptions(b, c)
    ensures SameSubscriptions(a, c)
  {
  }

  /** `livedata_unsub`: acknowledge with `nosub` (no error) first, remove every
      subscription with that id, then poll, so documents no remaining
      subscription produces are unset. */
  function Unsubscribe(conn: Connection, id: Option<Value>, pubs: Publications, fetch: Fetch): (r: Step)
    requires Valid(conn.cache)
    ensures Valid(r.conn.cache)
    ensures |r.out| >= 1 && r.out[0] == NoSub(id, None)
    ensures SameSubscriptions(r.conn.subs, Without(conn.subs, id))
    ensures forall s :: s in r.conn.subs ==> !StrictEquals(s.id, id)
    ensures r.conn.cache == BuildSnapshot(Without(conn.subs, id), pubs, fetch)
    ensures r.out[1..] == Poll(Connection(Without(conn.subs, id), conn.cache), pubs, fetch).out
    ensures r.conn == Poll(Connection(Without(conn.subs, id), conn.cache), pubs, fetch).conn
    ensures forall i :: 0 <= i < |r.conn.subs| ==> r.conn.subs[i].ready
  {
    var kept := Without(conn.subs, id);
    var polled := Poll(Connection(kept, conn.cache), pubs, fetch);
    forall s | s in polled.conn.subs
      ensures !StrictEquals(s.id, id)
    {
      var i :| 0 <= i < |polled.conn.subs| && polled.conn.subs[i] == s;
      assert s.id == kept[i].id && kept[i] in kept;
    }
    var out := [NoSub(id, None)] + polled.out;
    assert out[1..] == polled.out;
    Step(polled.conn, out)
  }

  /** Subscribing and then unsubscribing with a fresh primitive id gives the
      connection back its earlier subscriptions and the cache they build. */
  lemma SubscribeThenUnsubscribe(conn: Connection, id: Option<Value>, name: string, params: Option<Value>,
                                 pubs: Publications, fetch: Fetch)
    requires Valid(conn.cache) && name in pubs
    requires id.None? || (!id.value.VList? && !id.value.VObj?)
    requires forall s :: s in conn.subs ==> !StrictEquals(s.id, id)
    ensures var after := Unsubscribe(Subscribe(conn, id, name, params, pubs, fetch).conn, id, pubs, fetch).conn;
      && SameSubscriptions(after.subs, conn.subs)
      && after.cache == BuildSnapshot(conn.subs, pubs, fetch)
  {
    var added := Subscription(id, name, params, false);
    var mid := Subscribe(conn, id, name, params, pubs, fetch).conn;
    var after := Unsubscribe(mid, id, pubs, fetch).conn;
    WithoutSame(mid.subs, conn.subs + [added], id);
    WithoutAppend(conn.subs, [added], id);
    WithoutNoMatch(conn.subs, id);
    assert StrictEquals(added.id, id);
    assert Without([added], id) == [];
    assert Without(conn.subs + [added], id) == conn.subs;
    SameSubscriptionsTransitive(after.subs, Without(mid.subs, id), conn.subs);
    BuildSnapshotIgnoresReady(Without(mid.subs, id), conn.subs, pubs, fetch);
  }

  /** Once `name` is published, a new connection's subscription to it is
      accepted, announced, and fills the cache with exactly what the
      publication's query fetches from its collection. */
  lemma PublishThenSubscribe(pubs: Publications, colls: Collections, name: string, options: Option<PublishOptions>,
                             id: Option<Value>, params: Option<Value>, fetch: Fetch)
    requires name !in pubs && Publish(pubs, colls, name, options).Success?
    ensures var published := Publish(pubs, colls, name, options).value;
            var coll := published[name].collection;
            var r := Subscribe(Connect(), id, name, params, published, fetch);
            && r.conn.cache == SendAll(EmptyCache, coll, fetch(coll, ResolveQuery(options.GetOr(NoOptions), params)))
            && Ready(id) in r.out
  {
    var published := Publish(pubs, colls, name, options).value;
    var sub := Subscription(id, name, params, false);
    assert [] + [sub] == [sub];
    assert [sub][..0] == [];
    assert BuildSnapshot([sub], published, fetch) == RunSubscription(EmptyCache, sub, published, fetch);
  }

  /** After unsubscribing, a well-formed key the cache held that the
      remaining subscriptions no longer produce is sent with every field but
      `_id` unset. */
  lemma UnsubscribeUnsetsDropped(conn: Connection, id: Option<Value>, pubs: Publications, fetch: Fetch, k: string)
    requires Valid(conn.cache)
    requires k in conn.cache.docs && WellFormed(k)
    requires k !in BuildSnapshot(Without(conn.subs, id), pubs, fetch).docs
    ensures Data(ParseKey(k).value.0, ParseKey(k).value.1, None, Some(conn.cache.docs[k].Keys - {IdField}))
      in Unsubscribe(conn, id, pubs, fetch).out
  {
    var next := BuildSnapshot(Without(conn.subs, id), pubs, fetch);
    RemovedPassShape(RemovedKeys(conn.cache.order, next.docs), conn.cache.docs);
    var m := Data(ParseKey(k).value.0, ParseKey(k).value.1, None, Some(conn.cache.docs[k].Keys - {IdField}));
    var polled := Poll(Connection(Without(conn.subs, id), conn.cache), pubs, fetch);
    assert m in DataMessages(conn.cache, next);
    assert m in polled.out[..|DataMessages(conn.cache, next)|];
    assert m in Unsubscribe(conn, id, pubs, fetch).out[1..];
  }

  /** Readiness is monotonic: polling again with nothing changed announces no
      subscription a second time, keeps the cache, and only re-sends one
      empty data message per well-formed key. */
  lemma PollAgain(conn: Connection, pubs: Publications, fetch: Fetch)
    requires Valid(conn.cache)
    ensures var once := Poll(conn, pubs, fetch);
            var twice := Poll(once.conn, pubs, fetch);
            && twice.conn == once.conn
            && (forall m :: m in twice.out ==> m.Data? && m.toSet.None? && m.toUnset.None?)
  {
    var once := Poll(conn, pubs, fetch);
    var twice := Poll(once.conn, pubs, fetch);
    BuildSnapshotIgnoresReady(once.conn.subs, conn.subs, pubs, fetch);
    assert PendingCount(once.conn.subs) == 0 by {
      AllReadyNoneLeft(once.conn.subs);
    }
    DiffCoverage.RepollSendsEmptyMessages(once.conn.cache);
    assert twice.out == DataMessages(once.conn.cache, once.conn.cache);
    assert |twice.conn.subs| == |once.conn.subs|;
    assert forall i :: 0 <= i < |twice.conn.subs| ==> twice.conn.subs[i] == once.conn.subs[i];
  }

  lemma {:induction false} AllReadyNoneLeft(subs: seq<Subscription>)
    requires forall i :: 0 <= i < |subs| ==> subs[i].ready
    ensures PendingCount(subs) == 0
    decreases |subs|
  {
    if |subs| > 0 {
      AllReadyNoneLeft(subs[1..]);
    }
  }

  /** How the dispatcher received one 'livedata' message. */
  datatype Received = Handled(step: Step) | Crashed

  /** The 'livedata' handler as written: `typeof msg !== 'object' || !msg.msg`
      lets `null` through to the property read `msg.msg`, which throws. */
  function ReceiveAsWritten(conn: Connection, msg: Value, pubs: Publications, fetch: Fetch): (r: Received)
    requires Valid(conn.cache)
    ensures r.Crashed? <==> msg.VNull?
    ensures !IsObjectType(msg) ==> r == Handled(Step(conn, []))
  {
    if !IsObjectType(msg) then Handled(Step(conn, []))
    else if msg.VNull? then Crashed
    else Handled(Dispatch(conn, msg, pubs, fetch))
  }

  /** The routing shared by both readings, for a non-null message. */
  function Dispatch(conn: Connection, msg: Value, pubs: Publications, fetch: Fetch): Step
    requires Valid(conn.cache) && !msg.VNull?
  {
    var kind := Property(msg, "msg");
    if !Present(kind) then Step(conn, [])
    else if kind == Some(VStr("sub")) then
      Subscribe(conn, Property(msg, "id"), PropertyKey(Property(msg, "name")), Property(msg, "params"), pubs, fetch)
    else if kind == Some(VStr("unsub")) then
      Unsubscribe(conn, Property(msg, "id"), pubs, fetch)
    else Step(conn, [])
  }

  /** The 'livedata' handler as intended: every value that is not an object
      with a truthy `msg` is discarded, `null` included. */
  function Receive(conn: Connection, msg: Value, pubs: Publications, fetch: Fetch): (r: Step)
    requires Valid(conn.cache)
    ensures Valid(r.conn.cache)
    ensures !msg.VObj? ==> r == Step(conn, [])
    ensures msg.VObj? && !Present(Field(msg.fields, "msg")) ==> r == Step(conn, [])
    ensures msg.VObj? && Field(msg.fields, "msg") == Some(VStr("sub")) ==>
      r == Subscribe(conn, Field(msg.fields, "id"), PropertyKey(Field(msg.fields, "name")), Field(msg.fields, "params"), pubs, fetch)
    ensures msg.VObj? && Field(msg.fields, "msg") == Some(VStr("unsub")) ==>
      r == Unsubscribe(conn, Field(msg.fields, "id"), pubs, fetch)
    ensures (msg.VObj? && Present(Field(msg.fields, "msg")) &&
             Field(msg.fields, "msg") != Some(VStr("sub")) && Field(msg.fields, "msg") != Some(VStr("unsub"))) ==>
      r == Step(conn, [])
  {
    if !IsObjectType(msg) || msg.VNull? then Step(conn, [])
    else Dispatch(conn, msg, pubs, fetch)
  }

  /** The discrepancy: a `null` message crashes the handler as written. */
  lemma NullMessageCrashes(conn: Connection, pubs: Publications, fetch: Fetch)
    requires Valid(conn.cache)
    ensures ReceiveAsWritten(conn, VNull, pubs, fetch) == Crashed
    ensures Receive(conn, VNull, pubs, fetch) == Step(conn, [])
  {
  }

  /** On every other message the corrected handler behaves as written. */
  lemma ReceiveAgreesOffNull(conn: Connection, msg: Value, pubs: Publications, fetch: Fetch)
    requires Valid(conn.cache) && !msg.VNull?
    ensures ReceiveAsWritten(conn, msg, pubs, fetch) == Handled(Receive(conn, msg, pubs, fetch))
  {
  }
}

=== FILE: values.dfy ===
/** JSON-shaped values as they arrive over the wire and as documents hold
    them, with the few JavaScript conversions the synchronisation core relies
    on: truthiness, `typeof`, string conversion for property keys, and `===`. */
module Values {
  import opened Wrappers
  import Strings

  /** A JSON value. Numbers are integers; `undefined` is never a value here,
      an absent property is `None` instead. */
  datatype Value =
    | VNull
    | VBool(b: bool)
    | VNum(n: int)
    | VStr(s: string)
    | VList(items: seq<Value>)
    | VObj(fields: map<string, Value>)

  /** A document, or any plain object: field name to value. */
  type Doc = map<string, Value>

  /** The identifier field of every document. */
  const IdField: string := "_id"

  /** JavaScript truthiness: `null`, `false`, `0` and `""` are falsy. */
  predicate Truthy(v: Value)
  {
    match v
    case VNull => false
    case VBool(b) => b
    case VNum(n) => n != 0
    case VStr(s) => s != ""
    case VList(_) => true
    case VObj(_) => true
  }

  /** `!d._id` is false: the document carries a truthy `_id`. */
  predicate HasTruthyId(d: Doc)
  {
    IdField in d && Truthy(d[IdField])
  }

  /** Truthiness of a possibly absent property: `undefined` is falsy. */
  predicate Present(v: Option<Value>)
  {
    v.Some? && Truthy(v.value)
  }

  /** `typeof v === 'object'`, which holds of `null` and of arrays as well. */
  predicate IsObjectType(v: Value)
  {
    v.VNull? || v.VList? || v.VObj?
  }

  /** Property read `o[f]` on a document. */
  function Field(d: Doc, f: string): (r: Option<Value>)
    ensures r.Some? <==> f in d
    ensures r.Some? ==> r.value == d[f]
  {
    if f in d then Some(d[f]) else None
  }

  /** Property read `v[f]` on a non-null value; arrays and primitives carry no
      named properties of their own. */
  function Property(v: Value, f: string): (r: Option<Value>)
    requires !v.VNull?
    ensures r.Some? ==> v.VObj? && f in v.fields
  {
    if v.VObj? then Field(v.fields, f) else None
  }

  function DigitChar(d: nat): char
    requires d < 10
  {
    "0123456789"[d]
  }

  /** Decimal digits of a natural number. */
  function NaturalText(n: nat): (t: string)
    ensures |t| >= 1
    ensures |t| == 1 <==> n < 10
    ensures forall i :: 0 <= i < |t| ==> '0' <= t[i] <= '9'
  {
    if n < 10 then [DigitChar(n)] else NaturalText(n / 10) + [DigitChar(n % 10)]
  }

  /** Different naturals have different decimal texts. */
  lemma {:induction false} NaturalTextInjective(a: nat, b: nat)
    requires NaturalText(a) == NaturalText(b)
    ensures a == b
    decreases a
  {
    var t := NaturalText(a);
    var n := |t| - 1;
    if a < 10 {
      assert t[0] == DigitChar(a) && NaturalText(b)[0] == DigitChar(b);
      DigitCharInjective(a, b);
    } else {
      var ta := NaturalText(a / 10);
      var tb := NaturalText(b / 10);
      assert t == ta + [DigitChar(a % 10)] && t == tb + [DigitChar(b % 10)];
      assert ta == t[..n] == tb;
      NaturalTextInjective(a / 10, b / 10);
      assert t[n] == DigitChar(a % 10) == DigitChar(b % 10);
      DigitCharInjective(a % 10, b % 10);
    }
  }

  lemma DigitCharInjective(x: nat, y: nat)
    requires x < 10 && y < 10 && DigitChar(x) == DigitChar(y)
    ensures x == y
  {
  }

  /** `String(n)` for an integer number. */
  function NumberText(n: int): string
  {
    if n < 0 then "-" + NaturalText(-n) else NaturalText(n)
  }

  /** The property names `"0"`, `"1"`, ... of the array indices below `n`. */
  function IndexNames(n: int): set<string>
  {
    set i | 0 <= i < n :: NumberText(i)
  }

  /** An index name is made of digits only, so it is never `_id`. */
  lemma IndexNameIsNotId(n: int)
    ensures IdField !in IndexNames(n)
  {
    forall i | 0 <= i < n
      ensures NumberText(i) != IdField
    {
      assert NumberText(i)[0] != IdField[0];
    }
  }

  /** The plain object that a `for (k in v)` copy makes of an array or a
      string: element `i` under the property name `String(i)`. */
  function IndexedCopy(xs: seq<Value>): (r: Doc)
    ensures r.Keys == IndexNames(|xs|)
    ensures forall i :: 0 <= i < |xs| ==> r[NumberText(i)] == xs[i]
  {
    IndexNamesDistinct(|xs|);
    map i | 0 <= i < |xs| :: NumberText(i) := xs[i]
  }

  /** Distinct indices have distinct names. */
  lemma IndexNamesDistinct(n: nat)
    ensures forall i, j :: 0 <= i < n && 0 <= j < n && NumberText(i) == NumberText(j) ==> i == j
  {
    forall i, j | 0 <= i < n && 0 <= j < n && NumberText(i) == NumberText(j)
      ensures i == j
    {
      NaturalTextInjective(i, j);
    }
  }

  /** `String(v)`: the text used when `v` becomes a property key or is
      concatenated to a string. Arrays join their elements with ',', rendering
      `null` elements as the empty string. */
  function Text(v: Value): string
  {
    match v
    case VNull => "null"
    case VBool(b) => if b then "true" else "false"
    case VNum(n) => NumberText(n)
    case VStr(s) => s
    case VObj(_) => "[object Object]"
    case VList(xs) =>
      Strings.JoinWith(seq(|xs|, i requires 0 <= i < |xs| => if xs[i].VNull? then "" else Text(xs[i])), ',')
  }

  /** The key `o[k]` reads when `k` is a possibly absent value. */
  function PropertyKey(k: Option<Value>): string
  {
    match k
    case None => "undefined"
    case Some(v) => Text(v)
  }

  /** `a === b` between two values each freshly parsed from a message:
      `undefined === undefined`, primitives compare by value, and two parsed
      objects or arrays are never the same object. */
  predicate StrictEquals(a: Option<Value>, b: Option<Value>)
  {
    match (a, b)
    case (None, None) => true
    case (Some(x), Some(y)) => x == y && !x.VList? && !x.VObj?
    case _ => false
  }

  /** `===` is symmetric, and an object or array id equals nothing. */
  lemma StrictEqualsFacts(a: Option<Value>, b: Option<Value>)
    ensures StrictEquals(a, b) <==> StrictEquals(b, a)
    ensures a.Some? && (a.value.VList? || a.value.VObj?) ==> !StrictEquals(a, b)
    ensures StrictEquals(a, b) ==> a == b
  {
  }
}

=== FILE: wrappers.dfy ===
/** Option and Result datatypes used throughout the model. An absent JavaScript
    property (`undefined`) is `None`; a thrown error is a `Failure`. */
module Wrappers {

  datatype Option<+T> = None | Some(value: T) {

    /** Returns the value inside `Some`, or `default` for `None`. */
    function GetOr(default: T): T {
      match this
      case Some(v) => v
      case None => default
    }
  }

  datatype Result<+R, +E> = Success(value: R) | Failure(error: E)
}
